=== FILE: README.md ===
# Sweet Shop stock, ledger and cart — a Dafny model

This project models the stock-keeping core of the Sweet Shop Management
application. It covers two sides.

The Express backend:

- the purchase and restock transactions, which change a sweet's stock level,
  recompute its `isAvailable` flag, record a purchase and append one
  inventory-log entry;
- the create and update routes, which set availability on their own;
- the inventory-log query, which returns at most 50 entries for one sweet,
  newest first;
- the admin dashboard, which counts the catalog, totals revenue and units
  sold, and ranks the five best-selling sweets.

The React shop:

- the cart: the `+`, `-` and remove buttons, and the total price and item
  count;
- "add to cart", "clear cart" and the page redirect that follows a login or
  logout;
- the checkout loop, which posts one purchase per cart entry and stops at the
  first rejection;
- the stock-status badge of the inventory page.

The backend store is an immutable `Store`. It holds the sweets keyed by id,
the purchase records and the inventory log, the last two in commit order.
Every handler is a pure function from a store and a request to a `Result`.
The error paths are `Err` values, not thrown exceptions.

The store invariant `Sweets.Valid` says three things:

- every sweet's flag equals "stock is positive";
- every sweet's log entries chain before→after, and the newest entry's
  "after" is the current stock;
- every purchase record is completed and names a known sweet with at least one unit.

Purchase, restock and create preserve `Sweets.Valid`. An update that sends only
the flag does not, and a concrete store shows this.

Modules, in dependency order:

- `Wrappers`: `Option`, `Result`, `Min`.
- `Sweets`: the data model and the store invariants.
- `Stock`: the four write routes.
- `Ledger`: the log query, command histories and stock accounting.
- `Dashboard`: the statistics route.
- `Cart`: the cart buttons and totals.
- `Shop`: the application shell.
- `Checkout`: the order loop.
- `StockStatus`: the inventory badge.

## Model

| member | source | states |
|---|---|---|
| Stock.Purchase | backend/app.js:361-396 | An invalid quantity (missing or below 1) is rejected before the lookup. An unknown sweet gives NotFound. The purchase fails exactly when the sweet is unavailable or has too little stock, and the failure reports the current stock. On success only that sweet changes: its stock drops by the quantity and its flag becomes "stock > 0". A completed record priced at unit price × quantity is appended, plus one log entry with change −quantity, before/after snapshots and reason "Purchase by <username>". |
| Stock.RestockReason | backend/app.js:418 | A missing or empty reason falls back to "Restock by <username>". Any other reason is kept as sent. The recorded reason is never empty. |
| Stock.Restock | backend/app.js:399-425 | Restock succeeds exactly when the quantity is at least 1 and the sweet exists. The stock rises by the quantity and the sweet becomes available whatever its state before. Purchases are untouched. One restock log entry is appended with matching snapshots. Its reason is the one supplied, or "Restock by <username>" when the supplied one is missing or empty. The reply carries the sweet's name and new total. |
| Stock.CreateSweet | backend/app.js:264-282 | Errors are checked in order: missing name, price or quantity; then a trimmed name already in the catalog; then a negative price or quantity (the schema minimum) or a trimmed name outside 2 to 100 characters (backend/app.js:67-69). A name of white space only fails validation. On success the new sweet is the only addition, its name is stored trimmed, and it is available exactly when its quantity is positive. |
| Stock.Trim | backend/app.js:67 | The result neither starts nor ends with white space. It is a slice of the input, and everything cut off on either side is white space. |
| Stock.TrimIdempotent | backend/app.js:67 | Trimming a trimmed name changes nothing, so stored names are already trimmed. |
| Stock.CreateRejectsSameTrimmedName | backend/app.js:264-271 | After a sweet is created, creating another whose name trims to the same text (the `trim` of backend/app.js:67) fails with DuplicateName, however either name is padded. |
| Stock.PaddedNameIsTrimmed | backend/app.js:67 | The name " Laddu " is stored as "Laddu". |
| Stock.UpdateStock | backend/app.js:330-345 | An unknown sweet gives NotFound. A negative quantity fails validation. A supplied quantity decides availability ("quantity > 0"). Without one, the flag is taken as sent. Purchases and log are unchanged. |
| Stock.PurchaseKeepsValid | backend/app.js:366-390 | A purchase on a valid store yields a valid store: flags still track stock, the sweet's log chain extends to its new stock, and the new record meets the schema minimum of one unit. |
| Stock.RestockKeepsValid | backend/app.js:404-419 | A restock on a valid store yields a valid store. |
| Stock.CreateKeepsValid | backend/app.js:273-277 | Creating a sweet on a valid store yields a valid store, and the new sweet starts with no log entries. |
| Stock.UpdateWithQuantityKeepsAvailability | backend/app.js:336-337 | An update that supplies a quantity leaves the updated sweet's flag equal to "stock > 0". |
| Stock.UpdateFlagAloneCanDiverge | backend/app.js:336-337 | An update that sends only `isAvailable: false` for a sweet with 10 units succeeds and leaves it unavailable with stock, breaking the availability invariant. |
| Ledger.GetLog | backend/app.js:428-436 | The reply holds min(50, n) entries, where n is the number of log entries for the sweet. Entry k is the k-th newest of those. Every entry names that sweet and comes from the log. |
| Ledger.GetLogWalksHistoryBackwards | backend/app.js:428-436 | On a valid store, the newest returned entry ends at the current stock. Each entry's after equals before plus change. Each entry starts where the next (older) one ended, so the reply replays the stock history backwards. |
| Ledger.GetLogCompleteUnderLimit | backend/app.js:430-431 | With 50 or fewer entries for the sweet, the reply holds exactly those entries (as a multiset). |
| Ledger.RunAccounted | backend/app.js:371-418 | After any sequence of purchases and restocks (failed ones change nothing), the catalog keys are unchanged and the log and purchases are extensions of the old ones. Each sweet's stock equals its old stock plus the units restocked in the new log entries, minus the units sold in the new purchase records. |
| Ledger.RunKeepsValid | backend/app.js:361-425 | Any sequence of purchases and restocks keeps the store valid. |
| Ledger.UnitPurchasesSerialize | backend/app.js:366-390 | n one-unit purchases of a sweet with q units whose flag tracks its stock, processed one after another, sell exactly min(n, q) units and never oversell. Stock ends at q − n, or 0 when n > q. Each sale adds one log entry and one purchase record. |
| Ledger.LadduScenario | backend/app.js:361-436 | The sweet of the purchase tests (backend/tests/purchase.test.js:37-63) has 10 units at price 20. Buying 2 costs 40 and leaves 8. Buying 100 then fails with an InsufficientStock error that reports the 8 units left. Buying 0 or −1 units is rejected. Restocking 5 leaves 13 units and the sweet available. The log query then returns the restock (+5, 8→13) before the purchase (−2, 10→8). |
| Dashboard.CountsPartitionCatalog | backend/app.js:488-490 | When every flag tracks stock, the available sweets and the out-of-stock sweets partition the catalog. |
| Dashboard.TotalsBounds | backend/app.js:494-497 | Total revenue and total items sold are the sums of `totalPrice` and `quantity` over the purchase records. With non-negative prices and the schema minimum of one unit (backend/app.js:92), revenue is never negative and at least one item is sold per purchase. |
| Dashboard.TotalsAppend | backend/app.js:494-497 | Revenue and items sold are additive over concatenated purchase histories. |
| Dashboard.PurchaseAddsToTotals | backend/app.js:494-497 | A successful purchase raises total revenue by price × quantity and total items sold by the quantity. |
| Dashboard.Group | backend/app.js:499-500 | Grouping purchases by sweet gives one group per purchased sweet, with no duplicates. Each group's units and revenue equal the sums over that sweet's records. The groups' units and revenue add up to the overall totals. |
| Dashboard.InsertKeepsSorted | backend/app.js:501 | Inserting a group into a list sorted by units sold (descending) keeps it sorted. |
| Dashboard.SortBySold | backend/app.js:501 | The `$sort` stage yields the same groups, as a multiset, ordered by units sold, most first. |
| Dashboard.SortKeepsDistinct | backend/app.js:500-501 | Sorting one-group-per-sweet groups keeps one group per sweet. |
| Dashboard.TopGroups | backend/app.js:501-502 | The `$limit` stage keeps min(5, n) of the n ranked groups. They stay sorted and hold one group per sweet, and each comes from the ranking. No ranked group left out sold more units than a kept one, so the kept groups are the five best sellers. |
| Dashboard.Lookup | backend/app.js:503-505 | The join keeps at most the groups it is given. Each result joins a given group with a catalog sweet of that id and carries the sweet's name. Dashboard.LookupKeepsListed states the converse: no group whose sweet is in the catalog is dropped. Dashboard.LookupKeepsOrder states that the order is kept. |
| Dashboard.LookupKeepsListed | backend/app.js:503-504 | Every given group whose sweet is in the catalog appears in the join's result, joined with that sweet. Only groups whose sweet is gone are dropped by `$unwind`. |
| Dashboard.LookupKeepsOrder | backend/app.js:501-505 | Joining a ranking sorted by units sold keeps it in descending order. |
| Dashboard.LookupKeepsDistinct | backend/app.js:500-505 | Joining groups with one group per sweet lists no sweet twice. |
| Dashboard.TopSelling | backend/app.js:499-506 | At most five entries, in descending order of units sold, with no sweet listed twice. Each is a catalog sweet with its name, its units sold and its revenue. |
| Dashboard.TopSellingDominates | backend/app.js:499-502 | When purchase records name catalog sweets, no catalog sweet left out of the top list sold more units than any listed one. |
| Dashboard.TopSellingSize | backend/app.js:502-504 | When purchase records name catalog sweets, the list holds min(5, number of distinct sweets sold) entries: the join drops nothing. |
| Dashboard.ComputeDashboard | backend/app.js:486-521 | The overview counts the catalog, the purchase records and the given users. The available count is the number of sweets whose flag is on. The out-of-stock count is the number with quantity 0. The two add up to the catalog size when flags track stock. Revenue and items sold are the grouped totals: 0 with no purchases, the `revenueData[0] \|\| {0, 0}` fallback. The top list is the ranked one. |
| Cart.TotalsBounds | frontend/src/components/Cart.jsx:21-23 | The total price (the `reduce` over price × cartQty) of a cart whose entries each hold one unit up to their stock is never negative. The item count shown at line 182 is at least one per entry. |
| Cart.TotalsConcat | frontend/src/components/Cart.jsx:21-23 | The total price and the item count (left folds over the cart) add over concatenation. |
| Cart.IncreaseAt | frontend/src/components/Cart.jsx:4-10 | `+` on an entry of a well-formed cart keeps it well formed. At the stock limit it changes nothing. Otherwise it raises that entry alone by one unit, adding its price to the total and one to the item count. |
| Cart.DecreaseAt | frontend/src/components/Cart.jsx:12-15 | `-` keeps the cart well formed. At one unit it changes nothing. Otherwise it lowers that entry alone by one, taking its price off the total. |
| Cart.RemoveItem | frontend/src/components/Cart.jsx:17-19 | The filtered cart holds exactly the entries of the old one whose id differs. |
| Cart.RemoveAt | frontend/src/components/Cart.jsx:17-19 | Removing entry k of a cart with unique ids cuts out that entry alone, and the totals drop by its amount and units. |
| Cart.RemoveKeepsWellFormed | frontend/src/components/Cart.jsx:17-19 | Removing any id keeps a well-formed cart well formed. |
| Shop.AddToCart | frontend/src/App.jsx:43-51 | A guest is sent to the login page with the cart untouched. A sweet already in the cart changes nothing. Otherwise the sweet is appended with one unit. |
| Shop.AddToCartKeepsWellFormed | frontend/src/App.jsx:43-51 | For a sweet with stock, adding keeps the cart well formed. The sweet is in the cart afterwards exactly when the user is signed in or it was already there. An added entry raises the total by one unit price and the count by one. |
| Shop.ClearCart | frontend/src/App.jsx:53 | The cart becomes empty with zero totals. Page and login are kept. |
| Shop.OnUserChange | frontend/src/App.jsx:30-40 | A logout always lands on the home page. A login moves off the login and register pages to home. Any other page is kept. |
| Checkout.PlaceOrder | frontend/src/components/Checkout.jsx:28-62 | A phone number shorter than 10 characters (counted as Dafny characters; see "Left out") sends nothing and shows an error. Otherwise the cart is sent entry by entry. The cart is cleared and the orders page shown exactly when every entry went through. On a rejection the cart and page stay and the backend's message is shown. |
| Checkout.Settle | frontend/src/components/Checkout.jsx:38-54 | The loop sends at most one request per cart entry and at least one when it fails. When every entry goes through, it sends one request per entry. |
| Checkout.SentInCartOrder | frontend/src/components/Checkout.jsx:38-49 | The k-th request sent is for the k-th cart entry's sweet and its cart quantity. |
| Checkout.StopsAtFirstFailure | frontend/src/components/Checkout.jsx:38-54 | When checkout fails, every entry before the last one sent was accepted. The last one was rejected from the state they left. |
| Checkout.LaterItemsNotSent | frontend/src/components/Checkout.jsx:53-57 | After a rejection, entries further down the cart are never sent. |
| Checkout.SettleAppend | frontend/src/components/Checkout.jsx:38-54 | Sending `a + b` is sending `a`, then sending `b` from where `a` left off, when all of `a` went through. |
| Checkout.CheckoutChargesCartTotal | frontend/src/components/Checkout.jsx:24-54 | Against the real purchase route, checkout appends one purchase record per accepted entry. When every entry is accepted at the listed prices, total revenue rises by the cart's total price and items sold by its item count. |
| StockStatus.GetStatus | frontend/src/components/Inventory.jsx:34-38 | "Out of Stock" (red) exactly at 0. "Low Stock" (orange) exactly for non-zero levels up to 5, negative ones included. "In Stock" (green) exactly above 5. |
| StockStatus.ReportStatuses | frontend/src/components/Inventory.jsx:64-65 | The PDF report labels each sweet with the same status text as the table. |

## Left out

- Authentication, JWT handling and the admin check: every route is modelled as already authorized, with the caller's id and username as an `Actor`.
- Database mechanics are left out: queries, `populate`, pagination and the listing and search routes.
- The delete route is left out, and so are the purchase-history and user routes.
- Concurrency: each handler is one atomic step on the store. The source reads, checks and saves in separate round trips, and writes the stock, the purchase record and the log entry separately. Interleavings and partial writes are not modelled. The source gives no no-oversell guarantee for concurrent purchases of one sweet: two requests can both pass the stock check at backend/app.js:371 before either saves. Ledger.UnitPurchasesSerialize covers requests processed one after another only. The storage failures (500 replies) and the `Conflict` outcome of an optimistic retry loop are left out for the same reason.
- Request quantities are integers or missing. Fractional numbers and strings, which JavaScript would coerce, are not modelled.
- Prices and revenues are non-negative integers (minor units), not floating point.
- Timestamps: "newest first" is reverse commit order. How the database orders equal timestamps is not modelled.
- Stock.UpdateStock: only `quantity` and `isAvailable` of the `Object.assign` payload are modelled. Name, price and the other fields are copied without checks that bear on stock.
- Stock.UpdateStock: it writes `quantity` without an inventory-log entry, as the source does, so `Sweets.Valid` is only proved for purchase, restock and create.
- Stock.CreateSweet: category, description and their validators are not modelled. The name's length is counted in Unicode characters, not the UTF-16 code units the schema counts. The duplicate check compares trimmed names, as Mongoose does when it applies the schema's `trim` setter to the `findOne` filter. A race between two creates with the same name, which the unique index turns into a 500 reply, is left out with the other storage failures.
- Dashboard.ComputeDashboard: the user count is a parameter, because the user collection is not modelled.
- Dashboard.TopSelling: ties in units sold are ordered by an insertion sort. The source's `$sort` leaves their order unspecified, so only the descending order and the dominance of listed sweets are stated.
- Dashboard.ComputeDashboard: `availableSweets` counts the flag, as the source's query does. `outOfStockSweets` counts quantity 0. They partition the catalog only while flags track stock (see Stock.UpdateFlagAloneCanDiverge).
- Error replies are the `Error` datatype. HTTP status codes and message strings are left out, except the reported stock level in InsufficientStock.
- The empty-cart screen of Checkout is left out. `PlaceOrder` on an empty cart just succeeds with nothing sent.
- The checkout loading flag, alerts, page rendering and the PDF layout are left out.
- Checkout.PlaceOrder: the phone length is counted in Unicode characters, not the UTF-16 code units that `phone.length` counts. A number written with characters outside the Basic Multilingual Plane, such as five emoji, passes the source's check but is refused by the model.
- Cart quantities are typed `int`, because `-` can in principle go below 1 only when a cart is already malformed. `Cart.WellFormed` is what the buttons preserve.
- Stock.Purchase also rejects a sweet whose flag is off, even with stock on hand (backend/app.js:371). Creating and updating a sweet set the flag directly, outside the purchase and restock transactions (backend/app.js:275, 336-337).

=== FILE: cart.dfy ===
/**
 * The client-side cart: a sequence of sweets, each carrying the stock level
 * it was added with and the number of units the buyer wants.
 */
module Cart {
  import opened Sweets

  /** A cart entry: the sweet as listed (id, price, stock `quantity`) plus `cartQty`. */
  datatype CartItem = CartItem(id: SweetId, price: nat, quantity: nat, cartQty: int)

  predicate UniqueIds(cart: seq<CartItem>)
  {
    forall i, j | 0 <= i < j < |cart| :: cart[i].id != cart[j].id
  }

  /** Every entry asks for at least one unit and no more than its stock. */
  predicate QuantitiesInRange(cart: seq<CartItem>)
  {
    forall i | 0 <= i < |cart| :: 1 <= cart[i].cartQty <= cart[i].quantity
  }

  predicate WellFormed(cart: seq<CartItem>)
  {
    UniqueIds(cart) && QuantitiesInRange(cart)
  }

  predicate InCart(cart: seq<CartItem>, id: SweetId)
  {
    exists i | 0 <= i < |cart| :: cart[i].id == id
  }

  /** What one entry contributes to the total price. */
  function Amount(c: CartItem): int
  {
    c.price * c.cartQty
  }

  /** The left fold `cart.reduce((t, c) => t + c.price * c.cartQty, 0)`. */
  function TotalPrice(cart: seq<CartItem>): int
  {
    if |cart| == 0 then 0 else TotalPrice(cart[..|cart| - 1]) + Amount(cart[|cart| - 1])
  }

  /** The left fold `cart.reduce((a, c) => a + c.cartQty, 0)`. */
  function TotalItems(cart: seq<CartItem>): int
  {
    if |cart| == 0 then 0 else TotalItems(cart[..|cart| - 1]) + cart[|cart| - 1].cartQty
  }

  /**
   * A well-formed cart costs nothing negative and counts at least one item
   * per entry.
   */
  lemma {:induction false} TotalsBounds(cart: seq<CartItem>)
    requires QuantitiesInRange(cart)
    ensures TotalPrice(cart) >= 0
    ensures TotalItems(cart) >= |cart|
  {
    if |cart| > 0 {
      var init := cart[..|cart| - 1];
      assert forall i | 0 <= i < |init| :: init[i] == cart[i];
      TotalsBounds(init);
      assert cart[|cart| - 1].cartQty >= 1;
    }
  }

  /** The totals are additive over concatenation, so they do not depend on how the cart is split. */
  lemma {:induction false} TotalsConcat(a: seq<CartItem>, b: seq<CartItem>)
    ensures TotalPrice(a + b) == TotalPrice(a) + TotalPrice(b)
    ensures TotalItems(a + b) == TotalItems(a) + TotalItems(b)
    decreases |b|
  {
    if |b| == 0 {
      assert a + b == a;
    } else {
      var b' := b[..|b| - 1];
      assert (a + b)[..|a + b| - 1] == a + b';
      TotalsConcat(a, b');
    }
  }

  /** Replacing one entry changes the totals by the difference between the two entries. */
  lemma {:induction false} TotalsReplace(cart: seq<CartItem>, k: nat, x: CartItem)
    requires k < |cart|
    ensures TotalPrice(cart[k := x]) == TotalPrice(cart) - Amount(cart[k]) + Amount(x)
    ensures TotalItems(cart[k := x]) == TotalItems(cart) - cart[k].cartQty + x.cartQty
  {
    assert cart == cart[..k] + [cart[k]] + cart[k + 1..];
    assert cart[k := x] == cart[..k] + [x] + cart[k + 1..];
    TotalsConcat(cart[..k] + [cart[k]], cart[k + 1..]);
    TotalsConcat(cart[..k] + [x], cart[k + 1..]);
    TotalsConcat(cart[..k], [cart[k]]);
    TotalsConcat(cart[..k], [x]);
    assert TotalPrice([x]) == Amount(x) by { assert [x][..0] == []; }
    assert TotalPrice([cart[k]]) == Amount(cart[k]) by { assert [cart[k]][..0] == []; }
  }

  /** `cart.map(c => c._id === id ? { ...c, cartQty: c.cartQty + delta } : c)` */
  function AdjustQty(cart: seq<CartItem>, id: SweetId, delta: int): (r: seq<CartItem>)
    ensures |r| == |cart|
    ensures forall i | 0 <= i < |cart| ::
              r[i] == if cart[i].id == id then cart[i].(cartQty := cart[i].cartQty + delta) else cart[i]
  {
    seq(|cart|, i requires 0 <= i < |cart| =>
      if cart[i].id == id then cart[i].(cartQty := cart[i].cartQty + delta) else cart[i])
  }

  /** With unique ids, adjusting an entry's id touches that entry alone. */
  lemma {:induction false} AdjustQtyAt(cart: seq<CartItem>, k: nat, delta: int)
    requires UniqueIds(cart)
    requires k < |cart|
    ensures AdjustQty(cart, cart[k].id, delta) == cart[k := cart[k].(cartQty := cart[k].cartQty + delta)]
  {
  }

  lemma {:induction false} ReplaceKeepsWellFormed(cart: seq<CartItem>, k: nat, x: CartItem)
    requires WellFormed(cart)
    requires k < |cart|
    requires x.id == cart[k].id && 1 <= x.cartQty <= x.quantity
    ensures WellFormed(cart[k := x])
  {
  }

  /**
   * Moving entry `k` by `delta` while it stays within its stock touches that
   * entry alone, keeps the cart well formed and moves the totals accordingly.
   */
  lemma {:induction false} AdjustAt(cart: seq<CartItem>, k: nat, delta: int)
    requires WellFormed(cart)
    requires k < |cart|
    requires 1 <= cart[k].cartQty + delta <= cart[k].quantity
    ensures var r := AdjustQty(cart, cart[k].id, delta);
            && r == cart[k := cart[k].(cartQty := cart[k].cartQty + delta)]
            && WellFormed(r)
            && TotalPrice(r) == TotalPrice(cart) + cart[k].price * delta
            && TotalItems(r) == TotalItems(cart) + delta
  {
    var x := cart[k].(cartQty := cart[k].cartQty + delta);
    AdjustQtyAt(cart, k, delta);
    TotalsReplace(cart, k, x);
    ReplaceKeepsWellFormed(cart, k, x);
  }

  /** The `+` button: refuses to go past the entry's stock. */
  function Increase(cart: seq<CartItem>, item: CartItem): (r: seq<CartItem>)
    ensures item.cartQty + 1 > item.quantity ==> r == cart
    ensures item.cartQty + 1 <= item.quantity ==> r == AdjustQty(cart, item.id, 1)
  {
    if item.cartQty + 1 > item.quantity then cart else AdjustQty(cart, item.id, 1)
  }

  /** The `-` button: never goes below one unit. */
  function Decrease(cart: seq<CartItem>, item: CartItem): (r: seq<CartItem>)
    ensures item.cartQty == 1 ==> r == cart
    ensures item.cartQty != 1 ==> r == AdjustQty(cart, item.id, -1)
  {
    if item.cartQty == 1 then cart else AdjustQty(cart, item.id, -1)
  }

  /**
   * Pressing `+` on entry `k` of a well-formed cart keeps it well formed; it
   * either changes nothing (stock reached) or raises that entry alone by one
   * unit, adding its price to the total.
   */
  lemma {:induction false} IncreaseAt(cart: seq<CartItem>, k: nat)
    requires WellFormed(cart)
    requires k < |cart|
    ensures var r := Increase(cart, cart[k]);
            && WellFormed(r)
            && (cart[k].cartQty == cart[k].quantity ==> r == cart)
            && (cart[k].cartQty < cart[k].quantity ==>
                  && r == cart[k := cart[k].(cartQty := cart[k].cartQty + 1)]
                  && TotalPrice(r) == TotalPrice(cart) + cart[k].price
                  && TotalItems(r) == TotalItems(cart) + 1)
  {
    if cart[k].cartQty < cart[k].quantity {
      AdjustAt(cart, k, 1);
    }
  }

  /**
   * Pressing `-` on entry `k` of a well-formed cart keeps it well formed; it
   * either changes nothing (one unit left) or lowers that entry alone by one
   * unit, taking its price off the total.
   */
  lemma {:induction false} DecreaseAt(cart: seq<CartItem>, k: nat)
    requires WellFormed(cart)
    requires k < |cart|
    ensures var r := Decrease(cart, cart[k]);
            && WellFormed(r)
            && (cart[k].cartQty == 1 ==> r == cart)
            && (cart[k].cartQty > 1 ==>
                  && r == cart[k := cart[k].(cartQty := cart[k].cartQty - 1)]
                  && TotalPrice(r) == TotalPrice(cart) - cart[k].price
                  && TotalItems(r) == TotalItems(cart) - 1)
  {
    if cart[k].cartQty > 1 {
      AdjustAt(cart, k, -1);
    }
  }

  /** `cart.filter(c => c._id !== id)` */
  function RemoveItem(cart: seq<CartItem>, id: SweetId): (r: seq<CartItem>)
    ensures forall c | c in r :: c in cart && c.id != id
    ensures forall c | c in cart && c.id != id :: c in r
  {
    if |cart| == 0 then []
    else
      var rest := RemoveItem(cart[1..], id);
      assert forall c | c in cart[1..] :: c in cart;
      assert forall c | c in cart :: c == cart[0] || c in cart[1..];
      if cart[0].id == id then rest else [cart[0]] + rest
  }

  lemma {:induction false} RemoveAbsent(cart: seq<CartItem>, id: SweetId)
    requires !InCart(cart, id)
    ensures RemoveItem(cart, id) == cart
  {
    if |cart| > 0 {
      RemoveAbsent(cart[1..], id);
      assert cart == [cart[0]] + cart[1..];
    }
  }

  lemma {:induction false} RemoveAtShape(cart: seq<CartItem>, k: nat)
    requires UniqueIds(cart)
    requires k < |cart|
    ensures RemoveItem(cart, cart[k].id) == cart[..k] + cart[k + 1..]
  {
    var id := cart[k].id;
    var tail := cart[1..];
    assert forall i | 0 <= i < |tail| :: tail[i] == cart[i + 1];
    if k == 0 {
      assert !InCart(tail, id);
      RemoveAbsent(tail, id);
    } else {
      assert UniqueIds(tail);
      assert tail[k - 1] == cart[k];
      RemoveAtShape(tail, k - 1);
      assert cart[0].id != id;
      assert cart[..k] + cart[k + 1..] == [cart[0]] + (tail[..k - 1] + tail[k..]);
    }
  }

  /**
   * Removing the id of entry `k` of a cart with unique ids cuts exactly
   * that entry out, keeping the others in order, and takes its amount off
   * the totals.
   */
  lemma {:induction false} RemoveAt(cart: seq<CartItem>, k: nat)
    requires UniqueIds(cart)
    requires k < |cart|
    ensures RemoveItem(cart, cart[k].id) == cart[..k] + cart[k + 1..]
    ensures TotalPrice(RemoveItem(cart, cart[k].id)) == TotalPrice(cart) - Amount(cart[k])
    ensures TotalItems(RemoveItem(cart, cart[k].id)) == TotalItems(cart) - cart[k].cartQty
  {
    RemoveAtShape(cart, k);
    assert cart == cart[..k] + [cart[k]] + cart[k + 1..];
    TotalsConcat(cart[..k] + [cart[k]], cart[k + 1..]);
    TotalsConcat(cart[..k], [cart[k]]);
    TotalsConcat(cart[..k], cart[k + 1..]);
    assert TotalPrice([cart[k]]) == Amount(cart[k]) by { assert [cart[k]][..0] == []; }
  }

  lemma {:induction false} CutKeepsWellFormed(cart: seq<CartItem>, k: nat)
    requires WellFormed(cart)
    requires k < |cart|
    ensures WellFormed(cart[..k] + cart[k + 1..])
  {
    var r := cart[..k] + cart[k + 1..];
    assert forall i | 0 <= i < |r| :: r[i] == cart[if i < k then i else i + 1];
  }

  lemma {:induction false} RemoveKeepsWellFormed(cart: seq<CartItem>, id: SweetId)
    requires WellFormed(cart)
    ensures WellFormed(RemoveItem(cart, id))
  {
    if k :| 0 <= k < |cart| && cart[k].id == id {
      RemoveAtShape(cart, k);
      CutKeepsWellFormed(cart, k);
    } else {
      RemoveAbsent(cart, id);
    }
  }
}

=== FILE: checkout.dfy ===
/**
 * "Place order": validates the phone number, then sends one purchase request
 * per cart entry, in cart order, stopping at the first failure. Requests are
 * settled one at a time against the backend; nothing already bought is
 * undone, and the cart is cleared only when every request succeeded.
 */
module Checkout {
  import opened Wrappers
  import opened Sweets
  import opened Cart
  import opened Shop
  import Stock
  import Dashboard

  /** A phone number needs at least this many characters. */
  const MinPhoneLength := 10

  /** The purchase request sent for one cart entry. */
  datatype Request = Request(sweet: SweetId, quantity: int)

  function RequestFor(item: CartItem): Request
  {
    Request(item.id, item.cartQty)
  }

  /** The backend's answer to one request: success, or the failure message it reports. */
  datatype Reply<+M> = Accepted | Rejected(message: M)

  /** Where the request loop ended: the backend state, the requests sent, the failure that stopped it. */
  datatype Settlement<+S, +M> = Settlement(state: S, sent: seq<Request>, failure: Option<M>)

  /**
   * The request loop. `send` is the backend: from its state and one request
   * it yields the next state and the reply.
   */
  function Settle<S, M>(s: S, items: seq<CartItem>, send: (S, Request) -> (S, Reply<M>)): (r: Settlement<S, M>)
    ensures |r.sent| <= |items|
    ensures r.failure.None? ==> |r.sent| == |items|
    ensures r.failure.Some? ==> |r.sent| >= 1
    decreases |items|
  {
    if |items| == 0 then Settlement(s, [], None)
    else
      var (s1, reply) := send(s, RequestFor(items[0]));
      match reply
      case Rejected(m) => Settlement(s1, [RequestFor(items[0])], Some(m))
      case Accepted =>
        var rest := Settle(s1, items[1..], send);
        Settlement(rest.state, [RequestFor(items[0])] + rest.sent, rest.failure)
  }

  /** One request per cart entry, in cart order, each for that entry's `cartQty` units. */
  lemma {:induction false} SentInCartOrder<S, M>(s: S, items: seq<CartItem>, send: (S, Request) -> (S, Reply<M>))
    ensures var r := Settle(s, items, send);
            forall k | 0 <= k < |r.sent| :: r.sent[k] == Request(items[k].id, items[k].cartQty)
    decreases |items|
  {
    if |items| > 0 {
      var step := send(s, RequestFor(items[0]));
      if step.1.Accepted? {
        SentInCartOrder(step.0, items[1..], send);
      }
    }
  }

  /**
   * Settling `a + b` is settling `a` and then, if all of `a` went through,
   * settling `b` from where `a` left the backend; otherwise `b` is never sent.
   */
  lemma {:induction false} SettleAppend<S, M>(s: S, a: seq<CartItem>, b: seq<CartItem>, send: (S, Request) -> (S, Reply<M>))
    ensures var ra := Settle(s, a, send);
            Settle(s, a + b, send)
              == if ra.failure.Some? then ra
                 else var rb := Settle(ra.state, b, send);
                      Settlement(rb.state, ra.sent + rb.sent, rb.failure)
    decreases |a|
  {
    if |a| == 0 {
      assert a + b == b;
    } else {
      assert (a + b)[0] == a[0];
      assert (a + b)[1..] == a[1..] + b;
      var step := send(s, RequestFor(a[0]));
      if step.1.Accepted? {
        SettleAppend(step.0, a[1..], b, send);
        var ra := Settle(step.0, a[1..], send);
        if ra.failure.None? {
          var rb := Settle(ra.state, b, send);
          assert [RequestFor(a[0])] + (ra.sent + rb.sent) == ([RequestFor(a[0])] + ra.sent) + rb.sent;
        }
      }
    }
  }

  /**
   * A stopped loop failed on its last request: every request before it was
   * accepted, and the failing one was sent from the state they left.
   */
  lemma StopsAtFirstFailure<S, M>(s: S, items: seq<CartItem>, send: (S, Request) -> (S, Reply<M>))
    requires Settle(s, items, send).failure.Some?
    ensures var r := Settle(s, items, send);
            var n := |r.sent|;
            var before := Settle(s, items[..n - 1], send);
            && before.failure.None?
            && send(before.state, RequestFor(items[n - 1])) == (r.state, Rejected(r.failure.value))
  {
    var r := Settle(s, items, send);
    var n := |r.sent|;
    var a := items[..n - 1];
    var b := items[n - 1..];
    assert items == a + b;
    SettleAppend(s, a, b, send);
    var ra := Settle(s, a, send);
    if ra.failure.Some? {
      // `a` would then account for all n sent requests, but it has only n - 1 items
      assert false;
    }
    assert b[0] == items[n - 1];
  }

  /** Once the loop stops, whatever follows in the cart is never sent. */
  lemma LaterItemsNotSent<S, M>(s: S, items: seq<CartItem>, more: seq<CartItem>, send: (S, Request) -> (S, Reply<M>))
    requires Settle(s, items, send).failure.Some?
    ensures Settle(s, items + more, send) == Settle(s, items, send)
  {
    SettleAppend(s, items, more, send);
  }

  datatype CheckoutError<+M> = InvalidPhone | RequestFailed(message: M)

  /** The checkout screen after "Place order": backend state, requests sent, cart, page, error shown. */
  datatype Placed<+S, +M> = Placed(state: S, sent: seq<Request>, cart: seq<CartItem>, page: Page, error: Option<CheckoutError<M>>)

  function PlaceOrder<S, M>(s: S, phone: string, cart: seq<CartItem>, page: Page, send: (S, Request) -> (S, Reply<M>))
    : (r: Placed<S, M>)
    // a short phone number sends nothing
    ensures |phone| < MinPhoneLength ==> r == Placed(s, [], cart, page, Some(InvalidPhone))
    ensures |phone| >= MinPhoneLength ==>
              var st := Settle(s, cart, send);
              && r.state == st.state && r.sent == st.sent
              // the cart is cleared and the orders page shown only when every entry went through
              && (st.failure.None? ==> r.cart == [] && r.page == OrdersPage && r.error.None?)
              && (st.failure.Some? ==> r.cart == cart && r.page == page && r.error == Some(RequestFailed(st.failure.value)))
    ensures r.error.None? <==> |phone| >= MinPhoneLength && |r.sent| == |cart| && Settle(s, cart, send).failure.None?
  {
    if |phone| < MinPhoneLength then Placed(s, [], cart, page, Some(InvalidPhone))
    else
      var st := Settle(s, cart, send);
      match st.failure
      case None => Placed(st.state, st.sent, [], OrdersPage, None)
      case Some(m) => Placed(st.state, st.sent, cart, page, Some(RequestFailed(m)))
  }

  // ---------------------------------------------------------------------------
  // Checkout against the stock engine

  /** The backend as the purchase route: one atomic purchase per request. */
  function BackendSend(buyer: Actor): (Store, Request) -> (Store, Reply<Error>)
  {
    (st: Store, rq: Request) =>
      match Stock.Purchase(st, rq.sweet, buyer, Some(rq.quantity))
      case Ok(p) => (p.store, Accepted)
      case Err(e) => (st, Rejected(e))
  }

  /** The cart's prices are the catalog's current prices. */
  predicate PricesCurrent(st: Store, cart: seq<CartItem>)
  {
    forall i | 0 <= i < |cart| :: cart[i].id in st.sweets && cart[i].price == st.sweets[cart[i].id].price
  }

  /**
   * Settled against the stock engine, the loop appends one purchase record
   * per accepted request; when every entry goes through at current prices,
   * the revenue grows by the cart's displayed total and the units sold by
   * its item count.
   */
  lemma {:induction false} CheckoutChargesCartTotal(st: Store, buyer: Actor, cart: seq<CartItem>)
    requires PricesCurrent(st, cart)
    ensures var r := Settle(st, cart, BackendSend(buyer));
            var accepted := if r.failure.Some? then |r.sent| - 1 else |r.sent|;
            && st.purchases <= r.state.purchases
            && |r.state.purchases| == |st.purchases| + accepted
            && (r.failure.None? ==>
                  && Dashboard.Revenue(r.state.purchases) == Dashboard.Revenue(st.purchases) + TotalPrice(cart)
                  && Dashboard.ItemsSold(r.state.purchases) == Dashboard.ItemsSold(st.purchases) + TotalItems(cart))
    decreases |cart|
  {
    var send := BackendSend(buyer);
    if |cart| > 0 {
      var item := cart[0];
      var p := Stock.Purchase(st, item.id, buyer, Some(item.cartQty));
      assert send(st, RequestFor(item)) == if p.Ok? then (p.value.store, Accepted) else (st, Rejected(p.error));
      if p.Ok? {
        var st1 := p.value.store;
        assert PricesCurrent(st1, cart[1..]) by {
          forall i | 0 <= i < |cart[1..]|
            ensures cart[1..][i].id in st1.sweets && cart[1..][i].price == st1.sweets[cart[1..][i].id].price
          {
            assert cart[1..][i] == cart[i + 1];
          }
        }
        CheckoutChargesCartTotal(st1, buyer, cart[1..]);
        Dashboard.PurchaseAddsToTotals(st, item.id, buyer, Some(item.cartQty));
        assert cart == [item] + cart[1..];
        TotalsConcat([item], cart[1..]);
        assert TotalPrice([item]) == Amount(item) by { assert [item][..0] == []; }
        assert TotalItems([item]) == item.cartQty by { assert [item][..0] == []; }
      }
    }
  }
}

=== FILE: dashboard.dfy ===
/**
 * GET /api/stats/dashboard: a read-only fold over the catalog and the
 * purchase history.
 */
module Dashboard {
  import opened Wrappers
  import opened Sweets
  import Stock

  /** The ranking is truncated to this many sweets. */
  const TopLimit: nat := 5

  datatype Overview = Overview(
    totalSweets: nat,
    availableSweets: nat,
    outOfStockSweets: nat,
    totalUsers: nat,
    totalPurchases: nat,
    totalRevenue: int,
    totalItemsSold: int)

  /** One group of the purchase history: a sweet with its units sold and revenue. */
  datatype Seller = Seller(sweet: SweetId, totalSold: int, totalRevenue: int)

  /** A ranked group joined with the sweet's catalog entry. */
  datatype TopSeller = TopSeller(seller: Seller, name: string)

  datatype Stats = Stats(overview: Overview, topSelling: seq<TopSeller>)

  // ---------------------------------------------------------------------------
  // Catalog counts

  function AvailableIds(sweets: map<SweetId, Sweet>): set<SweetId>
  {
    set id | id in sweets && sweets[id].isAvailable
  }

  function OutOfStockIds(sweets: map<SweetId, Sweet>): set<SweetId>
  {
    set id | id in sweets && sweets[id].quantity == 0
  }

  /**
   * The available count is taken from the flag and the out-of-stock count
   * from the quantity; while the flags track the stock, the two counts split
   * the catalog.
   */
  lemma CountsPartitionCatalog(st: Store)
    ensures StockConsistent(st) ==>
              |AvailableIds(st.sweets)| + |OutOfStockIds(st.sweets)| == |st.sweets|
  {
    if StockConsistent(st) {
      var a := AvailableIds(st.sweets);
      var b := OutOfStockIds(st.sweets);
      assert a * b == {};
      assert a + b == st.sweets.Keys;
    }
  }

  // ---------------------------------------------------------------------------
  // Revenue totals

  /** Sum of `totalPrice` over the purchase records; 0 when there are none. */
  function Revenue(ps: seq<PurchaseRecord>): int
  {
    if |ps| == 0 then 0 else ps[0].totalPrice + Revenue(ps[1..])
  }

  /** Sum of `quantity` over the purchase records; 0 when there are none. */
  function ItemsSold(ps: seq<PurchaseRecord>): int
  {
    if |ps| == 0 then 0 else ps[0].quantity + ItemsSold(ps[1..])
  }

  /**
   * With the schema minimum of one unit per record and non-negative prices,
   * revenue is never negative and at least one item is sold per purchase.
   */
  lemma {:induction false} TotalsBounds(ps: seq<PurchaseRecord>)
    requires forall i | 0 <= i < |ps| :: ps[i].quantity >= 1 && ps[i].totalPrice >= 0
    ensures Revenue(ps) >= 0
    ensures ItemsSold(ps) >= |ps|
  {
    if |ps| > 0 {
      var tail := ps[1..];
      assert forall i | 0 <= i < |tail| :: tail[i] == ps[i + 1];
      TotalsBounds(tail);
    }
  }

  lemma {:induction false} TotalsAppend(a: seq<PurchaseRecord>, b: seq<PurchaseRecord>)
    ensures Revenue(a + b) == Revenue(a) + Revenue(b)
    ensures ItemsSold(a + b) == ItemsSold(a) + ItemsSold(b)
  {
    if |a| == 0 {
      assert a + b == b;
    } else {
      assert (a + b)[1..] == a[1..] + b;
      TotalsAppend(a[1..], b);
    }
  }

  /** A successful purchase adds its charge to the revenue and its units to the items sold. */
  lemma PurchaseAddsToTotals(st: Store, id: SweetId, buyer: Actor, quantity: Option<int>)
    requires Stock.Purchase(st, id, buyer, quantity).Ok?
    ensures var st' := Stock.Purchase(st, id, buyer, quantity).value.store;
            && Revenue(st'.purchases) == Revenue(st.purchases) + st.sweets[id].price * quantity.value
            && ItemsSold(st'.purchases) == ItemsSold(st.purchases) + quantity.value
  {
    var r := Stock.Purchase(st, id, buyer, quantity).value;
    TotalsAppend(st.purchases, [r.purchase]);
  }

  // ---------------------------------------------------------------------------
  // Grouping by sweet

  function SoldIn(gs: seq<Seller>, id: SweetId): int
  {
    if |gs| == 0 then 0 else (if gs[0].sweet == id then gs[0].totalSold else 0) + SoldIn(gs[1..], id)
  }

  function RevenueIn(gs: seq<Seller>, id: SweetId): int
  {
    if |gs| == 0 then 0 else (if gs[0].sweet == id then gs[0].totalRevenue else 0) + RevenueIn(gs[1..], id)
  }

  function TotalSold(gs: seq<Seller>): int
  {
    if |gs| == 0 then 0 else gs[0].totalSold + TotalSold(gs[1..])
  }

  function TotalRevenue(gs: seq<Seller>): int
  {
    if |gs| == 0 then 0 else gs[0].totalRevenue + TotalRevenue(gs[1..])
  }

  function SweetsOf(gs: seq<Seller>): set<SweetId>
  {
    set g | g in gs :: g.sweet
  }

  /** No sweet has two groups. */
  predicate Distinct(gs: seq<Seller>)
  {
    forall i, j | 0 <= i < j < |gs| :: gs[i].sweet != gs[j].sweet
  }

  /** Revenue of sweet `id` across purchase records `ps`. */
  function RevenueOf(ps: seq<PurchaseRecord>, id: SweetId): int
  {
    if |ps| == 0 then 0
    else (if ps[0].sweet == id then ps[0].totalPrice else 0) + RevenueOf(ps[1..], id)
  }

  lemma {:induction false} PerSweetAppend(a: seq<PurchaseRecord>, p: PurchaseRecord, id: SweetId)
    ensures UnitsSold(a + [p], id) == UnitsSold(a, id) + (if p.sweet == id then p.quantity else 0)
    ensures RevenueOf(a + [p], id) == RevenueOf(a, id) + (if p.sweet == id then p.totalPrice else 0)
  {
    UnitsSoldAppend(a, [p], id);
    if |a| == 0 {
      assert a + [p] == [p];
    } else {
      assert (a + [p])[1..] == a[1..] + [p];
      PerSweetAppend(a[1..], p, id);
    }
  }

  /** Folds one purchase record into the groups: adds it to its sweet's group, or opens a new group at the end. */
  function AddSale(gs: seq<Seller>, p: PurchaseRecord): (r: seq<Seller>)
    ensures |r| == |gs| || r == gs + [Seller(p.sweet, p.quantity, p.totalPrice)]
  {
    if |gs| == 0 then
      [Seller(p.sweet, p.quantity, p.totalPrice)]
    else if gs[0].sweet == p.sweet then
      [gs[0].(totalSold := gs[0].totalSold + p.quantity,
              totalRevenue := gs[0].totalRevenue + p.totalPrice)] + gs[1..]
    else
      [gs[0]] + AddSale(gs[1..], p)
  }

  lemma {:induction false} AddSaleSweets(gs: seq<Seller>, p: PurchaseRecord)
    ensures SweetsOf(AddSale(gs, p)) == SweetsOf(gs) + {p.sweet}
  {
    var r := AddSale(gs, p);
    if |gs| > 0 {
      assert gs == [gs[0]] + gs[1..];
      assert SweetsOf(gs) == {gs[0].sweet} + SweetsOf(gs[1..]);
      assert r == [r[0]] + r[1..];
      assert SweetsOf(r) == {r[0].sweet} + SweetsOf(r[1..]);
      if gs[0].sweet == p.sweet {
        assert r[1..] == gs[1..];
      } else {
        AddSaleSweets(gs[1..], p);
        assert r[1..] == AddSale(gs[1..], p);
      }
    }
  }

  lemma {:induction false} AddSaleDistinct(gs: seq<Seller>, p: PurchaseRecord)
    requires Distinct(gs)
    ensures Distinct(AddSale(gs, p))
  {
    var r := AddSale(gs, p);
    if |gs| > 0 {
      if gs[0].sweet == p.sweet {
        assert r[1..] == gs[1..];
        assert forall i | 0 <= i < |r| :: r[i].sweet == gs[i].sweet;
      } else {
        var rest := AddSale(gs[1..], p);
        assert r == [gs[0]] + rest;
        assert Distinct(gs[1..]);
        AddSaleDistinct(gs[1..], p);
        AddSaleSweets(gs[1..], p);
        forall g | g in gs[1..]
          ensures g.sweet != gs[0].sweet
        {
          var m :| 0 <= m < |gs[1..]| && gs[1..][m] == g;
          assert gs[m + 1] == g;
        }
        assert gs[0].sweet !in SweetsOf(gs[1..]);
        forall j | 0 < j < |r|
          ensures r[0].sweet != r[j].sweet
        {
          assert r[j] == rest[j - 1];
          assert r[j] in rest;
          assert r[j].sweet in SweetsOf(rest);
        }
      }
    }
  }

  lemma {:induction false} AddSaleSums(gs: seq<Seller>, p: PurchaseRecord, id: SweetId)
    ensures SoldIn(AddSale(gs, p), id) == SoldIn(gs, id) + (if p.sweet == id then p.quantity else 0)
    ensures RevenueIn(AddSale(gs, p), id) == RevenueIn(gs, id) + (if p.sweet == id then p.totalPrice else 0)
    ensures TotalSold(AddSale(gs, p)) == TotalSold(gs) + p.quantity
    ensures TotalRevenue(AddSale(gs, p)) == TotalRevenue(gs) + p.totalPrice
  {
    var r := AddSale(gs, p);
    if |gs| > 0 {
      if gs[0].sweet == p.sweet {
        assert r[1..] == gs[1..];
      } else {
        AddSaleSums(gs[1..], p, id);
        assert r[1..] == AddSale(gs[1..], p);
      }
    }
  }

  /** The `$group` stage: one group per purchased sweet, in order of first purchase. */
  function Group(ps: seq<PurchaseRecord>): (r: seq<Seller>)
    ensures Distinct(r)
    ensures SweetsOf(r) == set p | p in ps :: p.sweet
    ensures forall id :: SoldIn(r, id) == UnitsSold(ps, id)
    ensures forall id :: RevenueIn(r, id) == RevenueOf(ps, id)
    ensures TotalSold(r) == ItemsSold(ps)
    ensures TotalRevenue(r) == Revenue(ps)
  {
    if |ps| == 0 then []
    else
      var init := ps[..|ps| - 1];
      var p := ps[|ps| - 1];
      assert ps == init + [p];
      forall id
        ensures UnitsSold(ps, id) == UnitsSold(init, id) + (if p.sweet == id then p.quantity else 0)
        ensures RevenueOf(ps, id) == RevenueOf(init, id) + (if p.sweet == id then p.totalPrice else 0)
      {
        PerSweetAppend(init, p, id);
      }
      TotalsAppend(init, [p]);
      var gs := Group(init);
      AddSaleSweets(gs, p);
      AddSaleDistinct(gs, p);
      forall id
        ensures SoldIn(AddSale(gs, p), id) == SoldIn(gs, id) + (if p.sweet == id then p.quantity else 0)
        ensures RevenueIn(AddSale(gs, p), id) == RevenueIn(gs, id) + (if p.sweet == id then p.totalPrice else 0)
      {
        AddSaleSums(gs, p, id);
      }
      AddSaleSums(gs, p, p.sweet);
      assert (set q | q in ps :: q.sweet) == (set q | q in init :: q.sweet) + {p.sweet};
      AddSale(gs, p)
  }

  /** In distinct groups, a sweet's summed units are its own group's units. */
  lemma {:induction false} SoldInDistinct(gs: seq<Seller>, i: nat)
    requires Distinct(gs)
    requires i < |gs|
    ensures SoldIn(gs, gs[i].sweet) == gs[i].totalSold
    ensures RevenueIn(gs, gs[i].sweet) == gs[i].totalRevenue
  {
    if i == 0 {
      SoldInAbsent(gs[1..], gs[0].sweet);
    } else {
      SoldInDistinct(gs[1..], i - 1);
    }
  }

  lemma {:induction false} SoldInAbsent(gs: seq<Seller>, id: SweetId)
    requires forall k | 0 <= k < |gs| :: gs[k].sweet != id
    ensures SoldIn(gs, id) == 0 && RevenueIn(gs, id) == 0
  {
    if |gs| > 0 {
      SoldInAbsent(gs[1..], id);
    }
  }

  // ---------------------------------------------------------------------------
  // Ranking

  predicate SortedBySold(gs: seq<Seller>)
  {
    forall i, j | 0 <= i < j < |gs| :: gs[i].totalSold >= gs[j].totalSold
  }

  /** Inserts `g` after every group that sold at least as much. */
  function Insert(g: Seller, gs: seq<Seller>): (r: seq<Seller>)
    ensures multiset(r) == multiset(gs) + multiset{g}
  {
    if |gs| == 0 then [g]
    else if gs[0].totalSold >= g.totalSold then
      assert gs == [gs[0]] + gs[1..];
      [gs[0]] + Insert(g, gs[1..])
    else
      [g] + gs
  }

  lemma {:induction false} InsertKeepsSorted(g: Seller, gs: seq<Seller>)
    requires SortedBySold(gs)
    ensures SortedBySold(Insert(g, gs))
  {
    if |gs| > 0 {
      var r := Insert(g, gs);
      if gs[0].totalSold >= g.totalSold {
        var rest := Insert(g, gs[1..]);
        InsertKeepsSorted(g, gs[1..]);
        assert r == [gs[0]] + rest;
        forall j | 0 < j < |r|
          ensures r[0].totalSold >= r[j].totalSold
        {
          assert r[j] == rest[j - 1];
          assert rest[j - 1] in multiset(rest);
          if rest[j - 1] != g {
            assert rest[j - 1] in multiset(gs[1..]);
            var m :| 0 <= m < |gs[1..]| && gs[1..][m] == rest[j - 1];
            assert gs[1..][m] == gs[m + 1];
          }
        }
      } else {
        assert r == [g] + gs;
        forall j | 0 < j < |r|
          ensures r[0].totalSold >= r[j].totalSold
        {
          assert r[j] == gs[j - 1];
        }
      }
    }
  }

  /** The `$sort` stage: descending by units sold. */
  function SortBySold(gs: seq<Seller>): (r: seq<Seller>)
    ensures SortedBySold(r)
    ensures multiset(r) == multiset(gs)
  {
    if |gs| == 0 then []
    else
      assert gs == [gs[0]] + gs[1..];
      var rest := SortBySold(gs[1..]);
      InsertKeepsSorted(gs[0], rest);
      Insert(gs[0], rest)
  }

  /** A group for a sweet not yet ranked keeps the ranking free of duplicates. */
  lemma {:induction false} InsertKeepsDistinct(g: Seller, gs: seq<Seller>)
    requires Distinct(gs)
    requires forall x | x in gs :: x.sweet != g.sweet
    ensures Distinct(Insert(g, gs))
  {
    if |gs| > 0 && gs[0].totalSold >= g.totalSold {
      var tail := gs[1..];
      var rest := Insert(g, tail);
      assert forall x | x in tail :: x in gs;
      InsertKeepsDistinct(g, tail);
      assert Insert(g, gs) == [gs[0]] + rest;
      forall x | x in rest
        ensures x.sweet != gs[0].sweet
      {
        assert x in multiset(rest);
        if x != g {
          assert x in multiset(tail);
          var m :| 0 <= m < |tail| && tail[m] == x;
          assert gs[m + 1] == x;
        }
      }
    }
  }

  /** Sorting moves groups around without duplicating any sweet. */
  lemma {:induction false} SortKeepsDistinct(gs: seq<Seller>)
    requires Distinct(gs)
    ensures Distinct(SortBySold(gs))
  {
    if |gs| > 0 {
      var tail := gs[1..];
      var rest := SortBySold(tail);
      SortKeepsDistinct(tail);
      forall x | x in rest
        ensures x.sweet != gs[0].sweet
      {
        assert x in multiset(rest);
        assert x in multiset(tail);
        var m :| 0 <= m < |tail| && tail[m] == x;
        assert gs[m + 1] == x;
      }
      InsertKeepsDistinct(gs[0], rest);
    }
  }

  /** The `$lookup`/`$unwind` stages: joins each group with its sweet, dropping groups whose sweet is gone. */
  function Lookup(top: seq<Seller>, sweets: map<SweetId, Sweet>): (r: seq<TopSeller>)
    ensures |r| <= |top|
    ensures forall t | t in r :: t.seller in top && t.seller.sweet in sweets && t.name == sweets[t.seller.sweet].name
  {
    if |top| == 0 then []
    else
      var rest := Lookup(top[1..], sweets);
      if top[0].sweet in sweets then [TopSeller(top[0], sweets[top[0].sweet].name)] + rest else rest
  }

  lemma {:induction false} LookupKeepsListed(top: seq<Seller>, sweets: map<SweetId, Sweet>)
    ensures forall g | g in top && g.sweet in sweets :: exists t | t in Lookup(top, sweets) :: t.seller == g
  {
    if |top| > 0 {
      var rest := Lookup(top[1..], sweets);
      LookupKeepsListed(top[1..], sweets);
      assert forall g | g in top :: g == top[0] || g in top[1..];
      if top[0].sweet in sweets {
        var r := Lookup(top, sweets);
        assert r == [TopSeller(top[0], sweets[top[0].sweet].name)] + rest;
        assert r[0] in r;
        assert forall t | t in rest :: t in r;
      }
    }
  }

  lemma SortedHeadDominates(gs: seq<Seller>)
    requires SortedBySold(gs)
    requires |gs| > 0
    ensures SortedBySold(gs[1..])
    ensures forall x | x in gs[1..] :: gs[0].totalSold >= x.totalSold
  {
    forall x | x in gs[1..]
      ensures gs[0].totalSold >= x.totalSold
    {
      var m :| 0 <= m < |gs[1..]| && gs[1..][m] == x;
      assert gs[m + 1] == x;
    }
  }

  /** Ranked best seller first. */
  predicate DescendingBySold(r: seq<TopSeller>)
  {
    forall i, j | 0 <= i < j < |r| :: r[i].seller.totalSold >= r[j].seller.totalSold
  }

  lemma ConsKeepsDescending(t: TopSeller, rest: seq<TopSeller>)
    requires DescendingBySold(rest)
    requires forall u | u in rest :: t.seller.totalSold >= u.seller.totalSold
    ensures DescendingBySold([t] + rest)
  {
    var r := [t] + rest;
    forall i, j | 0 <= i < j < |r|
      ensures r[i].seller.totalSold >= r[j].seller.totalSold
    {
      assert r[j] == rest[j - 1];
      if i > 0 {
        assert r[i] == rest[i - 1];
      } else {
        assert rest[j - 1] in rest;
      }
    }
  }

  lemma {:induction false} LookupKeepsOrder(top: seq<Seller>, sweets: map<SweetId, Sweet>)
    requires SortedBySold(top)
    ensures DescendingBySold(Lookup(top, sweets))
  {
    if |top| > 0 {
      var h := top[0];
      var tail := top[1..];
      SortedHeadDominates(top);
      LookupKeepsOrder(tail, sweets);
      if h.sweet in sweets {
        ConsKeepsDescending(TopSeller(h, sweets[h.sweet].name), Lookup(tail, sweets));
      }
    }
  }

  lemma {:induction false} LookupKeepsAll(top: seq<Seller>, sweets: map<SweetId, Sweet>)
    requires forall g | g in top :: g.sweet in sweets
    ensures |Lookup(top, sweets)| == |top|
  {
    if |top| > 0 {
      assert forall g | g in top[1..] :: g in top;
      LookupKeepsAll(top[1..], sweets);
      assert top[0] in top;
    }
  }

  /** No sweet is listed twice. */
  predicate ListedOnce(r: seq<TopSeller>)
  {
    forall i, j | 0 <= i < j < |r| :: r[i].seller.sweet != r[j].seller.sweet
  }

  lemma ConsKeepsListedOnce(t: TopSeller, rest: seq<TopSeller>)
    requires ListedOnce(rest)
    requires forall u | u in rest :: u.seller.sweet != t.seller.sweet
    ensures ListedOnce([t] + rest)
  {
    var r := [t] + rest;
    forall i, j | 0 <= i < j < |r|
      ensures r[i].seller.sweet != r[j].seller.sweet
    {
      assert r[j] == rest[j - 1];
      if i > 0 {
        assert r[i] == rest[i - 1];
      } else {
        assert rest[j - 1] in rest;
      }
    }
  }

  /** The join keeps a ranking free of duplicate sweets. */
  lemma {:induction false} LookupKeepsDistinct(top: seq<Seller>, sweets: map<SweetId, Sweet>)
    requires Distinct(top)
    ensures ListedOnce(Lookup(top, sweets))
  {
    if |top| > 0 {
      var h := top[0];
      var tail := top[1..];
      assert Distinct(tail) by {
        forall i, j | 0 <= i < j < |tail| ensures tail[i].sweet != tail[j].sweet {
          assert tail[i] == top[i + 1] && tail[j] == top[j + 1];
        }
      }
      assert forall x | x in tail :: x.sweet != h.sweet by {
        forall x | x in tail ensures x.sweet != h.sweet {
          var m :| 0 <= m < |tail| && tail[m] == x;
          assert top[m + 1] == x;
        }
      }
      LookupKeepsDistinct(tail, sweets);
      if h.sweet in sweets {
        ConsKeepsListedOnce(TopSeller(h, sweets[h.sweet].name), Lookup(tail, sweets));
      }
    }
  }

  /** The groups ranked by units sold. */
  function Ranked(ps: seq<PurchaseRecord>): seq<Seller>
  {
    SortBySold(Group(ps))
  }

  /** Every ranked group carries its sweet's units sold and revenue. */
  lemma RankedGroupTotals(ps: seq<PurchaseRecord>, g: Seller)
    requires g in Ranked(ps)
    ensures g.totalSold == UnitsSold(ps, g.sweet)
    ensures g.totalRevenue == RevenueOf(ps, g.sweet)
  {
    var groups := Group(ps);
    assert g in multiset(Ranked(ps));
    assert g in multiset(groups);
    var i :| 0 <= i < |groups| && groups[i] == g;
    SoldInDistinct(groups, i);
  }

  /** Joined groups keep the totals of the ranking they came from. */
  lemma LookupTotals(ps: seq<PurchaseRecord>, top: seq<Seller>, sweets: map<SweetId, Sweet>)
    requires forall g | g in top :: g in Ranked(ps)
    ensures forall t | t in Lookup(top, sweets) ::
              t.seller.totalSold == UnitsSold(ps, t.seller.sweet)
              && t.seller.totalRevenue == RevenueOf(ps, t.seller.sweet)
  {
    forall t | t in Lookup(top, sweets)
      ensures t.seller.totalSold == UnitsSold(ps, t.seller.sweet)
      ensures t.seller.totalRevenue == RevenueOf(ps, t.seller.sweet)
    {
      RankedGroupTotals(ps, t.seller);
    }
  }

  /** In a ranking, every group past a cut sold no more than any group before it. */
  lemma PrefixDominates(gs: seq<Seller>, n: nat)
    requires SortedBySold(gs)
    requires n <= |gs|
    ensures forall g, x | g in gs && g !in gs[..n] && x in gs[..n] :: g.totalSold <= x.totalSold
  {
  }

  /** The `$limit` stage: the first `TopLimit` groups of the ranking. */
  function TopGroups(ps: seq<PurchaseRecord>): (r: seq<Seller>)
    ensures |r| == Min(TopLimit, |Ranked(ps)|)
    ensures SortedBySold(r)
    ensures Distinct(r)
    ensures forall g | g in r :: g in Ranked(ps)
    // the kept groups are the best sellers: nothing left out sold more
    ensures forall g, x | g in Ranked(ps) && g !in r && x in r :: g.totalSold <= x.totalSold
  {
    var ranked := Ranked(ps);
    PrefixDominates(ranked, Min(TopLimit, |ranked|));
    SortKeepsDistinct(Group(ps));
    ranked[..Min(TopLimit, |ranked|)]
  }

  /** The top-selling part of the dashboard. */
  function TopSelling(st: Store): (r: seq<TopSeller>)
    ensures |r| <= TopLimit
    ensures DescendingBySold(r)
    ensures ListedOnce(r)
    ensures forall t | t in r ::
              && t.seller.sweet in st.sweets
              && t.name == st.sweets[t.seller.sweet].name
              && t.seller.totalSold == UnitsSold(st.purchases, t.seller.sweet)
              && t.seller.totalRevenue == RevenueOf(st.purchases, t.seller.sweet)
  {
    var top := TopGroups(st.purchases);
    LookupKeepsOrder(top, st.sweets);
    LookupKeepsDistinct(top, st.sweets);
    LookupTotals(st.purchases, top, st.sweets);
    Lookup(top, st.sweets)
  }

  /**
   * A sweet that is in the catalog but not in the ranking sold no more units
   * than any sweet that is in it.
   */
  lemma TopSellingDominates(st: Store, id: SweetId)
    requires PurchasesSound(st)
    requires id in st.sweets
    requires forall t | t in TopSelling(st) :: t.seller.sweet != id
    ensures forall t | t in TopSelling(st) :: UnitsSold(st.purchases, id) <= t.seller.totalSold
  {
    var ps := st.purchases;
    var ranked := Ranked(ps);
    var n := Min(TopLimit, |ranked|);
    var r := TopSelling(st);
    assert TopGroups(ps) == ranked[..n];
    assert r == Lookup(ranked[..n], st.sweets);
    RankedUnits(ps, id);
    if j :| 0 <= j < |ranked| && ranked[j].sweet == id && ranked[j].totalSold == UnitsSold(ps, id) {
      if j < n {
        ListedWhenInTop(st, j);
        assert false;
      }
      forall t | t in r
        ensures UnitsSold(ps, id) <= t.seller.totalSold
      {
        var i :| 0 <= i < n && ranked[i] == t.seller;
      }
    } else {
      forall t | t in r
        ensures UnitsSold(ps, id) <= t.seller.totalSold
      {
        UnitsSoldNonnegative(ps, t.seller.sweet);
      }
    }
  }

  lemma ListedWhenInTop(st: Store, j: nat)
    requires j < Min(TopLimit, |Ranked(st.purchases)|)
    requires Ranked(st.purchases)[j].sweet in st.sweets
    ensures exists t | t in TopSelling(st) :: t.seller == Ranked(st.purchases)[j]
  {
    var ranked := Ranked(st.purchases);
    var top := TopGroups(st.purchases);
    assert top == ranked[..Min(TopLimit, |ranked|)];
    assert ranked[j] in top;
    LookupKeepsListed(top, st.sweets);
  }

  /** A purchased sweet's units appear in the ranking; an unpurchased sweet sold nothing. */
  lemma RankedUnits(ps: seq<PurchaseRecord>, id: SweetId)
    ensures var ranked := Ranked(ps);
            || (exists j | 0 <= j < |ranked| :: ranked[j].sweet == id && ranked[j].totalSold == UnitsSold(ps, id))
            || UnitsSold(ps, id) == 0
  {
    var groups := Group(ps);
    var ranked := Ranked(ps);
    if id in SweetsOf(groups) {
      var g :| g in groups && g.sweet == id;
      var k :| 0 <= k < |groups| && groups[k] == g;
      SoldInDistinct(groups, k);
      assert g in multiset(ranked);
      var j :| 0 <= j < |ranked| && ranked[j] == g;
    } else {
      forall k | 0 <= k < |groups| ensures groups[k].sweet != id {
        assert groups[k] in groups;
      }
      SoldInAbsent(groups, id);
    }
  }

  lemma {:induction false} UnitsSoldNonnegative(ps: seq<PurchaseRecord>, id: SweetId)
    requires forall p | p in ps :: p.quantity >= 1
    ensures UnitsSold(ps, id) >= 0
  {
    if |ps| > 0 {
      assert forall p | p in ps[1..] :: p in ps;
      UnitsSoldNonnegative(ps[1..], id);
    }
  }

  /**
   * When every purchased sweet is still in the catalog, the ranking has
   * min(5, number of sweets ever purchased) entries.
   */
  lemma TopSellingSize(st: Store)
    requires PurchasesSound(st)
    ensures |TopSelling(st)| == Min(TopLimit, |Group(st.purchases)|)
  {
    var groups := Group(st.purchases);
    var ranked := Ranked(st.purchases);
    var top := TopGroups(st.purchases);
    assert |ranked| == |groups| by {
      assert |multiset(ranked)| == |multiset(groups)|;
    }
    forall g | g in top ensures g.sweet in st.sweets {
      assert g in multiset(ranked);
      assert g in multiset(groups);
      assert g.sweet in SweetsOf(groups);
      var p :| p in st.purchases && p.sweet == g.sweet;
    }
    LookupKeepsAll(top, st.sweets);
  }

  /** The whole dashboard. `userCount` is the number of registered users. */
  function ComputeDashboard(st: Store, userCount: nat): (d: Stats)
    ensures d.overview.totalSweets == |st.sweets|
    // the flag count and the zero-stock count are taken separately
    ensures d.overview.availableSweets == |AvailableIds(st.sweets)|
    ensures d.overview.outOfStockSweets == |OutOfStockIds(st.sweets)|
    ensures d.overview.totalUsers == userCount
    ensures StockConsistent(st) ==>
              d.overview.availableSweets + d.overview.outOfStockSweets == d.overview.totalSweets
    ensures d.overview.totalPurchases == |st.purchases|
    ensures d.overview.totalRevenue == TotalRevenue(Group(st.purchases))
    ensures d.overview.totalItemsSold == TotalSold(Group(st.purchases))
    ensures |st.purchases| == 0 ==> d.overview.totalRevenue == 0 && d.overview.totalItemsSold == 0
    ensures d.topSelling == TopSelling(st)
  {
    CountsPartitionCatalog(st);
    var overview := Overview(
      |st.sweets|,
      |AvailableIds(st.sweets)|,
      |OutOfStockIds(st.sweets)|,
      userCount,
      |st.purchases|,
      Revenue(st.purchases),
      ItemsSold(st.purchases));
    Stats(overview, TopSelling(st))
  }
}

=== FILE: ledger.dfy ===
/**
 * Reading the inventory log, and what the log says about sequences of
 * purchase and restock requests processed one after another.
 */
module Ledger {
  import opened Wrappers
  import opened Sweets
  import opened Stock

  /** The log query returns at most this many entries. */
  const LogLimit: nat := 50

  function Reverse<T>(s: seq<T>): (r: seq<T>)
    ensures |r| == |s|
    ensures forall k | 0 <= k < |s| :: r[k] == s[|s| - 1 - k]
  {
    if |s| == 0 then [] else [s[|s| - 1]] + Reverse(s[..|s| - 1])
  }

  /**
   * GET /api/sweets/:id/inventory-logs: the sweet's entries, newest first,
   * at most `LogLimit` of them. Newest first is reverse commit order.
   */
  function GetLog(logs: seq<LogEntry>, id: SweetId): (r: seq<LogEntry>)
    ensures var es := EntriesFor(logs, id);
            && |r| == Min(LogLimit, |es|)
            && forall k | 0 <= k < |r| :: r[k] == es[|es| - 1 - k]
    ensures forall e | e in r :: e in logs && e.sweet == id
  {
    var newest := Reverse(EntriesFor(logs, id));
    newest[..Min(LogLimit, |newest|)]
  }

  /**
   * Read against a sound ledger, the query walks the sweet's stock history
   * backwards: it starts at the current quantity and each entry begins where
   * the next (older) one ended.
   */
  lemma GetLogWalksHistoryBackwards(st: Store, id: SweetId)
    requires LedgerSound(st)
    requires id in st.sweets
    ensures var r := GetLog(st.logs, id);
            && (|r| > 0 ==> r[0].after == st.sweets[id].quantity)
            && (forall k | 0 <= k < |r| :: Balanced(r[k]))
            && (forall k | 0 <= k < |r| - 1 :: r[k + 1].after == r[k].before)
  {
    var r := GetLog(st.logs, id);
    var es := EntriesFor(st.logs, id);
    forall k | 0 <= k < |r| - 1
      ensures r[k + 1].after == r[k].before
    {
      assert r[k + 1] == es[|es| - 2 - k];
      assert r[k] == es[(|es| - 2 - k) + 1];
    }
  }

  /** When the sweet has at most `LogLimit` entries, the query returns all of them. */
  lemma GetLogCompleteUnderLimit(logs: seq<LogEntry>, id: SweetId)
    requires |EntriesFor(logs, id)| <= LogLimit
    ensures multiset(GetLog(logs, id)) == multiset(EntriesFor(logs, id))
  {
    var es := EntriesFor(logs, id);
    var r := GetLog(logs, id);
    assert r == Reverse(es);
    ReverseKeepsElements(es);
  }

  lemma {:induction false} ReverseKeepsElements<T>(s: seq<T>)
    ensures multiset(Reverse(s)) == multiset(s)
  {
    if |s| > 0 {
      ReverseKeepsElements(s[..|s| - 1]);
      assert s == s[..|s| - 1] + [s[|s| - 1]];
    }
  }

  // ---------------------------------------------------------------------------
  // Histories of requests

  /** A purchase or restock request as it reaches the engine. */
  datatype Command =
    | Buy(sweet: SweetId, buyer: Actor, quantity: Option<int>)
    | Refill(sweet: SweetId, actor: Actor, quantity: Option<int>, reason: Option<string>)

  /** One request processed atomically; a rejected request leaves the store as it was. */
  function Step(st: Store, c: Command): Store
  {
    match c
    case Buy(id, buyer, q) =>
      (match Purchase(st, id, buyer, q)
       case Ok(p) => p.store
       case Err(_) => st)
    case Refill(id, actor, q, reason) =>
      (match Restock(st, id, actor, q, reason)
       case Ok(p) => p.store
       case Err(_) => st)
  }

  /** Requests processed one after another, in order. */
  function Run(st: Store, cs: seq<Command>): Store
    decreases |cs|
  {
    if |cs| == 0 then st else Run(Step(st, cs[0]), cs[1..])
  }

  /**
   * The histories only grow, the catalog keeps its sweets, and each sweet's
   * stock moves by exactly the restocked units minus the units sold that the
   * new log entries and purchase records report.
   */
  predicate Accounted(st: Store, st': Store)
  {
    && st'.sweets.Keys == st.sweets.Keys
    && st.logs <= st'.logs
    && st.purchases <= st'.purchases
    && forall id | id in st.sweets ::
         st'.sweets[id].quantity
           == st.sweets[id].quantity
              + UnitsRestocked(st'.logs[|st.logs|..], id)
              - UnitsSold(st'.purchases[|st.purchases|..], id)
  }

  lemma StepAccounted(st: Store, c: Command)
    ensures Accounted(st, Step(st, c))
  {
    var st' := Step(st, c);
    match c
    case Buy(id, buyer, q) =>
      var r := Purchase(st, id, buyer, q);
      if r.Ok? {
        assert st'.logs[|st.logs|..] == [st'.logs[|st.logs|]];
        assert st'.purchases[|st.purchases|..] == [r.value.purchase];
      } else {
        assert st'.logs[|st.logs|..] == [];
        assert st'.purchases[|st.purchases|..] == [];
      }
    case Refill(id, actor, q, reason) =>
      var r := Restock(st, id, actor, q, reason);
      if r.Ok? {
        assert st'.logs[|st.logs|..] == [st'.logs[|st.logs|]];
        assert st'.purchases[|st.purchases|..] == [];
      } else {
        assert st'.logs[|st.logs|..] == [];
        assert st'.purchases[|st.purchases|..] == [];
      }
  }

  lemma AccountedCompose(a: Store, b: Store, c: Store)
    requires Accounted(a, b) && Accounted(b, c)
    ensures Accounted(a, c)
  {
    assert c.logs[|a.logs|..] == b.logs[|a.logs|..] + c.logs[|b.logs|..];
    assert c.purchases[|a.purchases|..] == b.purchases[|a.purchases|..] + c.purchases[|b.purchases|..];
    forall id | id in a.sweets
      ensures c.sweets[id].quantity
                == a.sweets[id].quantity
                   + UnitsRestocked(c.logs[|a.logs|..], id)
                   - UnitsSold(c.purchases[|a.purchases|..], id)
    {
      UnitsRestockedAppend(b.logs[|a.logs|..], c.logs[|b.logs|..], id);
      UnitsSoldAppend(b.purchases[|a.purchases|..], c.purchases[|b.purchases|..], id);
    }
  }

  /** Stock equals initial stock plus restocks minus purchases, over any history. */
  lemma {:induction false} RunAccounted(st: Store, cs: seq<Command>)
    ensures Accounted(st, Run(st, cs))
    decreases |cs|
  {
    if |cs| > 0 {
      var mid := Step(st, cs[0]);
      StepAccounted(st, cs[0]);
      RunAccounted(mid, cs[1..]);
      AccountedCompose(st, mid, Run(mid, cs[1..]));
    }
  }

  lemma {:induction false} RunKeepsValid(st: Store, cs: seq<Command>)
    requires Valid(st)
    ensures Valid(Run(st, cs))
    decreases |cs|
  {
    if |cs| > 0 {
      match cs[0] {
        case Buy(id, buyer, q) => PurchaseKeepsValid(st, id, buyer, q);
        case Refill(id, actor, q, reason) => RestockKeepsValid(st, id, actor, q, reason);
      }
      RunKeepsValid(Step(st, cs[0]), cs[1..]);
    }
  }

  function Repeat(c: Command, n: nat): (r: seq<Command>)
    ensures |r| == n
    ensures forall k | 0 <= k < n :: r[k] == c
  {
    if n == 0 then [] else [c] + Repeat(c, n - 1)
  }

  /**
   * `n` single-unit purchases of a sweet with `q` units whose availability
   * flag tracks its stock, processed one at a time: exactly min(n, q)
   * succeed, the stock ends at max(q - n, 0), and each success leaves one
   * log entry and one purchase record.
   */
  lemma {:induction false} UnitPurchasesSerialize(st: Store, id: SweetId, buyer: Actor, n: nat)
    requires id in st.sweets && AvailabilityTracksStock(st.sweets[id])
    ensures var q := st.sweets[id].quantity;
            var st' := Run(st, Repeat(Buy(id, buyer, Some(1)), n));
            && id in st'.sweets
            && st'.sweets[id].quantity == (if n <= q then q - n else 0)
            && |st'.logs| == |st.logs| + Min(n, q)
            && |st'.purchases| == |st.purchases| + Min(n, q)
    decreases n
  {
    if n > 0 {
      var c := Buy(id, buyer, Some(1));
      assert Repeat(c, n)[1..] == Repeat(c, n - 1);
      var mid := Step(st, c);
      assert Run(st, Repeat(c, n)) == Run(mid, Repeat(c, n - 1));
      UnitPurchasesSerialize(mid, id, buyer, n - 1);
    }
  }

  /** The purchase tests' sweet, followed by a restock and a log query. */
  lemma LadduScenario()
    ensures var admin := Actor(1, "admin");
            var buyer := Actor(2, "buyer");
            var st0 := Store(map[7 := Sweet("Test Laddu", 20, 10, true)], [], []);
            var r1 := Purchase(st0, 7, buyer, Some(2));
            && Purchase(st0, 7, buyer, Some(0)) == Err(InvalidQuantity)
            && Purchase(st0, 7, buyer, Some(-1)) == Err(InvalidQuantity)
            && r1.Ok?
            && r1.value.purchase.totalPrice == 40
            && r1.value.store.sweets[7].quantity == 8
            && Purchase(r1.value.store, 7, buyer, Some(100)) == Err(InsufficientStock(8))
            && var r3 := Restock(r1.value.store, 7, admin, Some(5), None);
               && r3.Ok?
               && r3.value.newTotal == 13
               && r3.value.store.sweets[7].isAvailable
               && GetLog(r3.value.store.logs, 7)
                  == [LogEntry(7, 1, RestockAction, 5, 8, 13, "Restock by admin"),
                      LogEntry(7, 2, PurchaseAction, -2, 10, 8, "Purchase by buyer")]
  {
    var admin := Actor(1, "admin");
    var buyer := Actor(2, "buyer");
    var st0 := Store(map[7 := Sweet("Test Laddu", 20, 10, true)], [], []);
    var st1 := Purchase(st0, 7, buyer, Some(2)).value.store;
    var st3 := Restock(st1, 7, admin, Some(5), None).value.store;
    var e1 := LogEntry(7, 2, PurchaseAction, -2, 10, 8, "Purchase by buyer");
    var e2 := LogEntry(7, 1, RestockAction, 5, 8, 13, "Restock by admin");
    assert "Purchase by " + buyer.username == "Purchase by buyer";
    assert "Restock by " + admin.username == "Restock by admin";
    assert st1.logs == [e1];
    assert st3.logs == [e1, e2];
    EntriesForAppend([e1], e2, 7);
    EntriesForAppend([], e1, 7);
    assert [] + [e1] == [e1];
    assert EntriesFor(st3.logs, 7) == [e1, e2];
  }
}

=== FILE: shop.dfy ===
/**
 * The application shell: the current page, the session's cart, adding to
 * and clearing the cart, and the redirect that follows a login or logout.
 */
module Shop {
  import opened Sweets
  import opened Cart

  datatype Page =
    | HomePage | SweetsPage | LoginPage | RegisterPage | CartPage | CheckoutPage
    | OrdersPage | ProfilePage | AddPage | InventoryPage | AdminOrdersPage | DashboardPage

  /** A sweet as the catalog lists it: id, price and stock level. */
  datatype Listing = Listing(id: SweetId, price: nat, quantity: nat)

  datatype Session = Session(signedIn: bool, page: Page, cart: seq<CartItem>)

  /**
   * The effect that runs whenever the user changes: a fresh login leaves the
   * login and register pages for home, a logout always goes home.
   */
  function OnUserChange(signedIn: bool, page: Page): (r: Page)
    ensures !signedIn ==> r == HomePage
    ensures signedIn && (page == LoginPage || page == RegisterPage) ==> r == HomePage
    ensures signedIn && page != LoginPage && page != RegisterPage ==> r == page
  {
    var afterLogin := if signedIn && (page == LoginPage || page == RegisterPage) then HomePage else page;
    if !signedIn then HomePage else afterLogin
  }

  /** Running the redirect twice for the same user lands where running it once did. */
  lemma OnUserChangeIdempotent(signedIn: bool, page: Page)
    ensures OnUserChange(signedIn, OnUserChange(signedIn, page)) == OnUserChange(signedIn, page)
    ensures signedIn ==> OnUserChange(signedIn, page) != LoginPage && OnUserChange(signedIn, page) != RegisterPage
  {
  }

  /** The entry a newly added sweet gets: one unit. */
  function NewEntry(sweet: Listing): CartItem
  {
    CartItem(sweet.id, sweet.price, sweet.quantity, 1)
  }

  /** "Add to cart": guests are sent to the login page; a sweet already in the cart is ignored. */
  function AddToCart(s: Session, sweet: Listing): (r: Session)
    ensures !s.signedIn ==> r == s.(page := LoginPage)
    ensures s.signedIn && InCart(s.cart, sweet.id) ==> r == s
    ensures s.signedIn && !InCart(s.cart, sweet.id) ==>
              r == s.(cart := s.cart + [NewEntry(sweet)])
  {
    if !s.signedIn then s.(page := LoginPage)
    else if exists i | 0 <= i < |s.cart| :: s.cart[i].id == sweet.id then s
    else s.(cart := s.cart + [NewEntry(sweet)])
  }

  /**
   * Adding a sweet with stock to a well-formed cart keeps it well formed (ids
   * stay unique) and raises the totals by at most one unit of that sweet.
   * The sweet list only offers the button for sweets with stock.
   */
  lemma {:induction false} AddToCartKeepsWellFormed(s: Session, sweet: Listing)
    requires WellFormed(s.cart)
    requires sweet.quantity >= 1
    ensures var r := AddToCart(s, sweet);
            && WellFormed(r.cart)
            && InCart(r.cart, sweet.id) == (s.signedIn || InCart(s.cart, sweet.id))
            && (r.cart != s.cart ==>
                  && TotalPrice(r.cart) == TotalPrice(s.cart) + sweet.price
                  && TotalItems(r.cart) == TotalItems(s.cart) + 1)
  {
    var r := AddToCart(s, sweet);
    if s.signedIn && !InCart(s.cart, sweet.id) {
      var e := NewEntry(sweet);
      assert r.cart[|s.cart|] == e;
      TotalsConcat(s.cart, [e]);
      assert TotalPrice([e]) == Amount(e) by { assert [e][..0] == []; }
      assert TotalItems([e]) == 1 by { assert [e][..0] == []; }
    }
  }

  /** "Clear cart": the empty cart, whose totals are zero. */
  function ClearCart(s: Session): (r: Session)
    ensures r.cart == [] && r.page == s.page && r.signedIn == s.signedIn
    ensures WellFormed(r.cart) && TotalPrice(r.cart) == 0 && TotalItems(r.cart) == 0
  {
    s.(cart := [])
  }
}

=== FILE: stock.dfy ===
/**
 * The stock-writing route handlers: purchase, restock, sweet creation and the
 * stock part of the generic update. Each handler is one atomic step from a
 * store to a new store plus its response, or to an error with the store left
 * as it was.
 */
module Stock {
  import opened Wrappers
  import opened Sweets

  /** The handlers reject a quantity that is missing, zero, negative. */
  predicate IsValidQuantity(q: Option<int>)
  {
    q.Some? && q.value >= 1
  }

  datatype Purchased = Purchased(store: Store, purchase: PurchaseRecord)

  datatype Restocked = Restocked(store: Store, name: string, newTotal: nat)

  /** The store is untouched except for sweet `id`, whose record becomes `s`. */
  predicate OnlySweetChanged(st: Store, st': Store, id: SweetId, s: Sweet)
  {
    && st'.sweets.Keys == st.sweets.Keys
    && id in st'.sweets && st'.sweets[id] == s
    && (forall other | other in st.sweets && other != id :: st'.sweets[other] == st.sweets[other])
  }

  /** POST /api/sweets/:id/purchase */
  function Purchase(st: Store, id: SweetId, buyer: Actor, quantity: Option<int>): (r: Result<Purchased, Error>)
    // validation comes before any lookup
    ensures !IsValidQuantity(quantity) ==> r == Err(InvalidQuantity)
    ensures IsValidQuantity(quantity) && id !in st.sweets ==> r == Err(NotFound)
    // the stock check reports what is left
    ensures IsValidQuantity(quantity) && id in st.sweets ==>
              (r.Err? <==> !st.sweets[id].isAvailable || st.sweets[id].quantity < quantity.value)
    ensures IsValidQuantity(quantity) && id in st.sweets
              && (!st.sweets[id].isAvailable || st.sweets[id].quantity < quantity.value) ==>
              r == Err(InsufficientStock(st.sweets[id].quantity))
    ensures r.Err? && r.error.InsufficientStock? ==>
              id in st.sweets && r.error.remaining == st.sweets[id].quantity
    ensures r.Ok? ==>
              var q := quantity.value;
              var prev := st.sweets[id];
              var st' := r.value.store;
              && IsValidQuantity(quantity) && id in st.sweets
              // no oversell: the new level is the old one less the units bought
              && q <= prev.quantity
              && OnlySweetChanged(st, st', id,
                   prev.(quantity := prev.quantity - q, isAvailable := prev.quantity - q > 0))
              && r.value.purchase == PurchaseRecord(buyer.id, id, q, prev.price * q, Completed)
              && st'.purchases == st.purchases + [r.value.purchase]
              && |st'.logs| == |st.logs| + 1
              && st'.logs[..|st.logs|] == st.logs
              && var e := st'.logs[|st.logs|];
                 && e.sweet == id && e.user == buyer.id && e.action == PurchaseAction
                 && e.change == -q && e.before == prev.quantity
                 && Balanced(e) && e.after == st'.sweets[id].quantity
                 && e.reason == "Purchase by " + buyer.username
  {
    if !IsValidQuantity(quantity) then Err(InvalidQuantity)
    else if id !in st.sweets then Err(NotFound)
    else
      var sweet := st.sweets[id];
      var q := quantity.value;
      if !sweet.isAvailable || sweet.quantity < q then Err(InsufficientStock(sweet.quantity))
      else
        var after := sweet.quantity - q;
        var record := PurchaseRecord(buyer.id, id, q, sweet.price * q, Completed);
        var entry := LogEntry(id, buyer.id, PurchaseAction, -q, sweet.quantity, after,
                              "Purchase by " + buyer.username);
        var st' := Store(st.sweets[id := sweet.(quantity := after, isAvailable := after > 0)],
                         st.purchases + [record],
                         st.logs + [entry]);
        assert st'.logs[..|st.logs|] == st.logs;
        Ok(Purchased(st', record))
  }

  /** The restock reason: the supplied one unless it is missing or empty. */
  function RestockReason(reason: Option<string>, actor: Actor): (r: string)
    ensures reason.Some? && reason.value != "" ==> r == reason.value
    ensures reason.None? || reason.value == "" ==> r == "Restock by " + actor.username
    // the log never records an empty reason
    ensures r != ""
  {
    if reason.Some? && reason.value != "" then reason.value else "Restock by " + actor.username
  }

  /** POST /api/sweets/:id/restock */
  function Restock(st: Store, id: SweetId, actor: Actor, quantity: Option<int>, reason: Option<string>)
    : (r: Result<Restocked, Error>)
    ensures !IsValidQuantity(quantity) ==> r == Err(InvalidQuantity)
    ensures IsValidQuantity(quantity) && id !in st.sweets ==> r == Err(NotFound)
    // a restock of a known sweet with a valid quantity always succeeds
    ensures r.Ok? <==> IsValidQuantity(quantity) && id in st.sweets
    ensures r.Ok? ==>
              var q := quantity.value;
              var prev := st.sweets[id];
              var st' := r.value.store;
              && OnlySweetChanged(st, st', id, prev.(quantity := prev.quantity + q, isAvailable := true))
              && r.value.name == prev.name
              && r.value.newTotal == prev.quantity + q
              && st'.purchases == st.purchases
              && |st'.logs| == |st.logs| + 1
              && st'.logs[..|st.logs|] == st.logs
              && var e := st'.logs[|st.logs|];
                 && e.sweet == id && e.user == actor.id && e.action == RestockAction
                 && e.change == q && e.before == prev.quantity
                 && Balanced(e) && e.after == st'.sweets[id].quantity
                 && e.reason == RestockReason(reason, actor)
  {
    if !IsValidQuantity(quantity) then Err(InvalidQuantity)
    else if id !in st.sweets then Err(NotFound)
    else
      var sweet := st.sweets[id];
      var q := quantity.value;
      var after := sweet.quantity + q;
      var entry := LogEntry(id, actor.id, RestockAction, q, sweet.quantity, after,
                            RestockReason(reason, actor));
      var st' := Store(st.sweets[id := sweet.(quantity := after, isAvailable := true)],
                       st.purchases,
                       st.logs + [entry]);
      assert st'.logs[..|st.logs|] == st.logs;
      Ok(Restocked(st', sweet.name, after))
  }

  // ---------------------------------------------------------------------------
  // Sweet names: the schema trims them and bounds the trimmed length

  /** The characters, besides the U+2000..U+200A block, that JavaScript's `String.prototype.trim` strips. */
  const SpaceChars: set<char> := {
    '\t', '\n', '\U{000B}', '\U{000C}', '\r', ' ', '\U{00A0}', '\U{1680}',
    '\U{2028}', '\U{2029}', '\U{202F}', '\U{205F}', '\U{3000}', '\U{FEFF}'}

  /** White space and line terminators, as `trim` sees them. */
  predicate IsSpace(c: char)
  {
    c in SpaceChars || '\U{2000}' <= c <= '\U{200A}'
  }

  /** `s` without the run of white space that starts it. */
  function TrimStart(s: string): (r: string)
    ensures |r| <= |s| && r == s[|s| - |r|..]
    ensures |r| > 0 ==> !IsSpace(r[0])
    ensures forall k | 0 <= k < |s| - |r| :: IsSpace(s[k])
  {
    if |s| > 0 && IsSpace(s[0]) then TrimStart(s[1..]) else s
  }

  /** `s` without the run of white space that ends it. */
  function TrimEnd(s: string): (r: string)
    ensures |r| <= |s| && r == s[..|r|]
    ensures |r| > 0 ==> !IsSpace(r[|r| - 1])
    ensures forall k | |r| <= k < |s| :: IsSpace(s[k])
  {
    if |s| > 0 && IsSpace(s[|s| - 1]) then TrimEnd(s[..|s| - 1]) else s
  }

  /** How many characters `Trim` cuts from the front of `s`. */
  function Cut(s: string): nat
  {
    |s| - |TrimStart(s)|
  }

  /** `trim: true`: the name with white space removed from both ends. */
  function Trim(s: string): (r: string)
    ensures |r| > 0 ==> !IsSpace(r[0]) && !IsSpace(r[|r| - 1])
    // only white space is removed, and only at the two ends
    ensures Cut(s) + |r| <= |s| && r == s[Cut(s)..Cut(s) + |r|]
    ensures forall k | 0 <= k < Cut(s) :: IsSpace(s[k])
    ensures forall k | Cut(s) + |r| <= k < |s| :: IsSpace(s[k])
  {
    var t := TrimStart(s);
    var r := TrimEnd(t);
    CutBothEnds(s, t, r);
    r
  }

  /** Cutting white space from the front of `s` and then from the back leaves a slice of `s`. */
  lemma CutBothEnds(s: string, t: string, r: string)
    requires |t| <= |s| && t == s[|s| - |t|..]
    requires |r| <= |t| && r == t[..|r|]
    requires forall k | |r| <= k < |t| :: IsSpace(t[k])
    ensures r == s[|s| - |t|..|s| - |t| + |r|]
    ensures forall k | |s| - |t| + |r| <= k < |s| :: IsSpace(s[k])
  {
    var a := |s| - |t|;
    forall k | a + |r| <= k < |s|
      ensures IsSpace(s[k])
    {
      assert s[k] == t[k - a];
    }
  }

  /** Trimming twice is trimming once, so stored names are already trimmed. */
  lemma TrimIdempotent(s: string)
    ensures Trim(Trim(s)) == Trim(s)
  {
  }

  const NameMinLength: nat := 2
  const NameMaxLength: nat := 100

  /** The schema's length bounds on the trimmed name (a blank name fails `required`, which this covers). */
  predicate NameLengthOk(name: string)
  {
    NameMinLength <= |name| <= NameMaxLength
  }

  predicate NameTaken(st: Store, name: string)
  {
    exists id | id in st.sweets :: st.sweets[id].name == name
  }

  /**
   * POST /api/sweets. The database chooses the new document's id, which is
   * never one already in use.
   */
  function CreateSweet(st: Store, id: SweetId, name: string, price: Option<int>, quantity: Option<int>)
    : (r: Result<Store, Error>)
    requires id !in st.sweets
    // the presence check looks at the name as sent
    ensures name == "" || price.None? || quantity.None? ==> r == Err(MissingFields)
    // the duplicate check and the stored name use the trimmed name
    ensures name != "" && price.Some? && quantity.Some? && NameTaken(st, Trim(name)) ==> r == Err(DuplicateName)
    // the schema rejects a negative price or quantity and a trimmed name of the wrong length at save time
    ensures (&& name != "" && price.Some? && quantity.Some? && !NameTaken(st, Trim(name))
             && (price.value < 0 || quantity.value < 0 || !NameLengthOk(Trim(name)))) ==> r == Err(ValidationFailed)
    ensures r.Ok? <==> && name != "" && price.Some? && quantity.Some? && !NameTaken(st, Trim(name))
                       && price.value >= 0 && quantity.value >= 0 && NameLengthOk(Trim(name))
    ensures r.Ok? ==>
              && r.value.sweets.Keys == st.sweets.Keys + {id}
              && (forall other | other in st.sweets :: r.value.sweets[other] == st.sweets[other])
              && r.value.sweets[id].name == Trim(name)
              && r.value.sweets[id].price == price.value
              && r.value.sweets[id].quantity == quantity.value
              && AvailabilityTracksStock(r.value.sweets[id])
              && r.value.purchases == st.purchases && r.value.logs == st.logs
  {
    var trimmed := Trim(name);
    if name == "" || price.None? || quantity.None? then Err(MissingFields)
    else if NameTaken(st, trimmed) then Err(DuplicateName)
    else if price.value < 0 || quantity.value < 0 || !NameLengthOk(trimmed) then Err(ValidationFailed)
    else
      var q := quantity.value;
      Ok(st.(sweets := st.sweets[id := Sweet(trimmed, price.value, q, q > 0)]))
  }

  /**
   * Names are compared after trimming: once a sweet is created, a second one
   * whose name trims to the same text is a duplicate, however it is padded.
   */
  lemma CreateRejectsSameTrimmedName(st: Store, id: SweetId, name: string, price: Option<int>, quantity: Option<int>,
                                     id2: SweetId, name2: string, price2: Option<int>, quantity2: Option<int>)
    requires id !in st.sweets && id2 !in st.sweets && id2 != id
    requires name != "" && price.Some? && quantity.Some? && price.value >= 0 && quantity.value >= 0
    requires !NameTaken(st, Trim(name)) && NameLengthOk(Trim(name))
    requires name2 != "" && price2.Some? && quantity2.Some? && Trim(name2) == Trim(name)
    ensures CreateSweet(CreateSweet(st, id, name, price, quantity).value, id2, name2, price2, quantity2)
            == Err(DuplicateName)
  {
    var st' := CreateSweet(st, id, name, price, quantity).value;
    assert st'.sweets[id].name == Trim(name2);
  }

  /** The padded name " Laddu " is stored as "Laddu". */
  lemma PaddedNameIsTrimmed()
    ensures Trim(" Laddu ") == "Laddu"
  {
    assert !IsSpace('L') && !IsSpace('u');
    assert TrimStart("Laddu ") == "Laddu ";
    assert TrimStart(" Laddu ") == "Laddu ";
    assert TrimEnd("Laddu") == "Laddu";
  }

  /**
   * The stock part of PUT /api/sweets/:id: the body's `quantity` and
   * `isAvailable` are copied onto the sweet, then a supplied quantity
   * overrides the availability flag; the save rejects a negative quantity.
   */
  function UpdateStock(st: Store, id: SweetId, quantity: Option<int>, isAvailable: Option<bool>)
    : (r: Result<Store, Error>)
    ensures id !in st.sweets ==> r == Err(NotFound)
    // the schema minimum rejects a negative quantity at save time
    ensures id in st.sweets && quantity.Some? && quantity.value < 0 ==> r == Err(ValidationFailed)
    ensures r.Ok? <==> id in st.sweets && (quantity.Some? ==> quantity.value >= 0)
    ensures r.Ok? ==> id in st.sweets && id in r.value.sweets
    ensures r.Ok? ==>
              var prev := st.sweets[id];
              var s := r.value.sweets[id];
              && OnlySweetChanged(st, r.value, id, s)
              && s.name == prev.name && s.price == prev.price
              && s.quantity == quantity.GetOr(prev.quantity)
              // a supplied quantity decides availability; otherwise the flag is whatever was sent
              && (quantity.Some? ==> AvailabilityTracksStock(s))
              && (quantity.None? ==> s.isAvailable == isAvailable.GetOr(prev.isAvailable))
              // the update writes no log entry and no purchase record
              && r.value.purchases == st.purchases && r.value.logs == st.logs
  {
    if id !in st.sweets then Err(NotFound)
    else
      var sweet := st.sweets[id];
      var flag := isAvailable.GetOr(sweet.isAvailable);
      var available := if quantity.Some? then quantity.value > 0 else flag;
      var q := quantity.GetOr(sweet.quantity);
      if q < 0 then Err(ValidationFailed)
      else Ok(st.(sweets := st.sweets[id := sweet.(quantity := q, isAvailable := available)]))
  }

  // ---------------------------------------------------------------------------
  // Invariants kept by the handlers

  /** Appending one entry for sweet `id` that starts at its old level and ends at its new one keeps the ledger sound. */
  lemma AppendKeepsLedgerSound(st: Store, st': Store, id: SweetId, e: LogEntry)
    requires LedgerSound(st)
    requires id in st.sweets
    requires st'.sweets.Keys == st.sweets.Keys
    requires forall other | other in st.sweets && other != id :: st'.sweets[other] == st.sweets[other]
    requires st'.logs == st.logs + [e]
    requires e.sweet == id && Balanced(e)
    requires e.before == st.sweets[id].quantity && e.after == st'.sweets[id].quantity
    ensures LedgerSound(st')
  {
    forall x | x in st'.logs
      ensures Balanced(x) && x.sweet in st'.sweets
    {
      if x != e { assert x in st.logs; }
    }
    forall other | other in st'.sweets
      ensures var es := EntriesFor(st'.logs, other);
              Chained(es) && (|es| > 0 ==> es[|es| - 1].after == st'.sweets[other].quantity)
    {
      EntriesForAppend(st.logs, e, other);
    }
  }

  lemma PurchaseKeepsValid(st: Store, id: SweetId, buyer: Actor, quantity: Option<int>)
    requires Valid(st)
    ensures Purchase(st, id, buyer, quantity).Ok? ==> Valid(Purchase(st, id, buyer, quantity).value.store)
  {
    var r := Purchase(st, id, buyer, quantity);
    if r.Ok? {
      var st' := r.value.store;
      assert st'.logs == st.logs + [st'.logs[|st.logs|]] by {
        assert st'.logs == st'.logs[..|st.logs|] + [st'.logs[|st.logs|]];
      }
      AppendKeepsLedgerSound(st, st', id, st'.logs[|st.logs|]);
    }
  }

  lemma RestockKeepsValid(st: Store, id: SweetId, actor: Actor, quantity: Option<int>, reason: Option<string>)
    requires Valid(st)
    ensures Restock(st, id, actor, quantity, reason).Ok? ==>
              Valid(Restock(st, id, actor, quantity, reason).value.store)
  {
    var r := Restock(st, id, actor, quantity, reason);
    if r.Ok? {
      var st' := r.value.store;
      assert st'.logs == st.logs + [st'.logs[|st.logs|]] by {
        assert st'.logs == st'.logs[..|st.logs|] + [st'.logs[|st.logs|]];
      }
      AppendKeepsLedgerSound(st, st', id, st'.logs[|st.logs|]);
    }
  }

  lemma CreateKeepsValid(st: Store, id: SweetId, name: string, price: Option<int>, quantity: Option<int>)
    requires Valid(st)
    requires id !in st.sweets
    ensures CreateSweet(st, id, name, price, quantity).Ok? ==> Valid(CreateSweet(st, id, name, price, quantity).value)
    // the new sweet starts with an empty log
    ensures CreateSweet(st, id, name, price, quantity).Ok? ==>
              EntriesFor(CreateSweet(st, id, name, price, quantity).value.logs, id) == []
  {
    // a fresh id has no log entries yet
    assert forall e | e in st.logs :: e.sweet != id;
    NoEntriesFor(st.logs, id);
  }

  /** An update that supplies a quantity keeps every sweet's flag in step with its stock. */
  lemma UpdateWithQuantityKeepsAvailability(st: Store, id: SweetId, quantity: Option<int>, isAvailable: Option<bool>)
    requires StockConsistent(st)
    requires quantity.Some?
    ensures UpdateStock(st, id, quantity, isAvailable).Ok? ==>
              StockConsistent(UpdateStock(st, id, quantity, isAvailable).value)
  {
  }

  /** An update that sends only `isAvailable` can contradict the stock level. */
  lemma UpdateFlagAloneCanDiverge()
    ensures var st := Store(map[7 := Sweet("Laddu", 20, 10, true)], [], []);
            && StockConsistent(st)
            && UpdateStock(st, 7, None, Some(false)).Ok?
            && !StockConsistent(UpdateStock(st, 7, None, Some(false)).value)
  {
    var st := Store(map[7 := Sweet("Laddu", 20, 10, true)], [], []);
    assert !AvailabilityTracksStock(UpdateStock(st, 7, None, Some(false)).value.sweets[7]);
  }
}

=== FILE: stock_status.dfy ===
/** The stock status badge of the admin inventory table and its PDF report. */
module StockStatus {
  import opened Sweets

  /** The label and colour shown for a stock level. */
  datatype Status = Status(text: string, color: string)

  const OutOfStock := Status("Out of Stock", "red")
  const LowStock := Status("Low Stock", "orange")
  const InStock := Status("In Stock", "green")

  /** Levels up to this one count as low. */
  const LowStockMax := 5

  /** The status of stock level `qty`. */
  function GetStatus(qty: int): (r: Status)
    ensures r == OutOfStock <==> qty == 0
    ensures r == LowStock <==> qty != 0 && qty <= LowStockMax
    ensures r == InStock <==> qty > LowStockMax
    ensures r == OutOfStock || r == LowStock || r == InStock
  {
    if qty == 0 then OutOfStock
    else if qty <= LowStockMax then LowStock
    else InStock
  }

  /** The labels of the PDF report, one per sweet, from the same function as the table. */
  function ReportStatuses(sweets: seq<Sweet>): (r: seq<string>)
    ensures |r| == |sweets|
    ensures forall i | 0 <= i < |sweets| :: r[i] == GetStatus(sweets[i].quantity).text
  {
    if |sweets| == 0 then [] else [GetStatus(sweets[0].quantity).text] + ReportStatuses(sweets[1..])
  }

  /**
   * For a sweet whose flag tracks its stock, "Out of Stock" is shown exactly
   * when the sweet is unavailable, and every available sweet is low or in stock.
   */
  lemma StatusAgreesWithAvailability(s: Sweet)
    requires AvailabilityTracksStock(s)
    ensures GetStatus(s.quantity) == OutOfStock <==> !s.isAvailable
    ensures s.isAvailable ==> GetStatus(s.quantity) in {LowStock, InStock}
  {
  }
}

=== FILE: sweets.dfy ===
/**
 * The persistent state of the sweet shop's stock engine: the catalog of sweets
 * with their stock records, the append-only purchase history and the
 * append-only inventory log, together with the invariants the route handlers
 * are meant to keep.
 */
module Sweets {
  import opened Wrappers

  /** Opaque database ids of sweets and users. */
  type SweetId = nat
  type UserId = nat

  /** The authenticated caller that the token middleware attaches to a request. */
  datatype Actor = Actor(id: UserId, username: string)

  /**
   * The stock-relevant part of one sweet document. The schema forbids a
   * negative quantity or price, so both are natural numbers; `price` is in
   * minor currency units.
   */
  datatype Sweet = Sweet(name: string, price: nat, quantity: nat, isAvailable: bool)

  datatype PurchaseStatus = Pending | Completed | Cancelled

  /** One purchase history document. */
  datatype PurchaseRecord = PurchaseRecord(
    user: UserId,
    sweet: SweetId,
    quantity: int,
    totalPrice: int,
    status: PurchaseStatus)

  datatype Action = PurchaseAction | RestockAction | AdjustmentAction

  /** One inventory log document: a quantity change with its before/after snapshots. */
  datatype LogEntry = LogEntry(
    sweet: SweetId,
    user: UserId,
    action: Action,
    change: int,
    before: int,
    after: int,
    reason: string)

  /** The three collections, with both histories in commit order. */
  datatype Store = Store(
    sweets: map<SweetId, Sweet>,
    purchases: seq<PurchaseRecord>,
    logs: seq<LogEntry>)

  /** The error responses of the stock routes. */
  datatype Error =
    | InvalidQuantity              // 400 'Invalid quantity' / 'Invalid qty'
    | NotFound                     // 404 'Not found'
    | InsufficientStock(remaining: nat) // 400 'Insufficient stock: <remaining>'
    | MissingFields                // 400 'Missing fields'
    | DuplicateName                // 409 'Sweet exists'
    | ValidationFailed             // 500: the schema rejected the document on save

  /** The availability flag agrees with the stock level. */
  predicate AvailabilityTracksStock(s: Sweet)
  {
    s.isAvailable == (s.quantity > 0)
  }

  predicate StockConsistent(st: Store)
  {
    forall id | id in st.sweets :: AvailabilityTracksStock(st.sweets[id])
  }

  /** The entries of `logs` that concern sweet `id`, in commit order. */
  function EntriesFor(logs: seq<LogEntry>, id: SweetId): (r: seq<LogEntry>)
    ensures |r| <= |logs|
    ensures forall e | e in r :: e in logs && e.sweet == id
  {
    if |logs| == 0 then []
    else
      var init := EntriesFor(logs[..|logs| - 1], id);
      if logs[|logs| - 1].sweet == id then init + [logs[|logs| - 1]] else init
  }

  lemma EntriesForAppend(logs: seq<LogEntry>, e: LogEntry, id: SweetId)
    ensures EntriesFor(logs + [e], id)
         == if e.sweet == id then EntriesFor(logs, id) + [e] else EntriesFor(logs, id)
  {
    assert (logs + [e])[..|logs|] == logs;
  }

  lemma {:induction false} NoEntriesFor(logs: seq<LogEntry>, id: SweetId)
    requires forall e | e in logs :: e.sweet != id
    ensures EntriesFor(logs, id) == []
  {
    if |logs| > 0 {
      NoEntriesFor(logs[..|logs| - 1], id);
    }
  }

  /** A log entry's after-snapshot is its before-snapshot plus its change. */
  predicate Balanced(e: LogEntry)
  {
    e.after == e.before + e.change
  }

  /** Each entry starts where the previous one ended. */
  predicate Chained(es: seq<LogEntry>)
  {
    forall k | 0 <= k < |es| - 1 :: es[k].after == es[k + 1].before
  }

  /**
   * The inventory log explains the stock: every entry is balanced and names
   * a known sweet, each sweet's entries chain, and the latest entry of a
   * sweet ends at its current quantity.
   */
  predicate LedgerSound(st: Store)
  {
    && (forall e | e in st.logs :: Balanced(e) && e.sweet in st.sweets)
    && (forall id | id in st.sweets ::
          var es := EntriesFor(st.logs, id);
          Chained(es) && (|es| > 0 ==> es[|es| - 1].after == st.sweets[id].quantity))
  }

  /** Purchase records as the purchase route creates them. */
  predicate PurchasesSound(st: Store)
  {
    forall p | p in st.purchases ::
      p.quantity >= 1 && p.status == Completed && p.sweet in st.sweets
  }

  predicate Valid(st: Store)
  {
    StockConsistent(st) && LedgerSound(st) && PurchasesSound(st)
  }

  /** Units of sweet `id` sold across purchase records `ps`. */
  function UnitsSold(ps: seq<PurchaseRecord>, id: SweetId): int
  {
    if |ps| == 0 then 0
    else (if ps[0].sweet == id then ps[0].quantity else 0) + UnitsSold(ps[1..], id)
  }

  lemma {:induction false} UnitsSoldAppend(a: seq<PurchaseRecord>, b: seq<PurchaseRecord>, id: SweetId)
    ensures UnitsSold(a + b, id) == UnitsSold(a, id) + UnitsSold(b, id)
  {
    if |a| == 0 {
      assert a + b == b;
    } else {
      assert (a + b)[1..] == a[1..] + b;
      UnitsSoldAppend(a[1..], b, id);
    }
  }

  /** Units of sweet `id` added by the restock entries of `es`. */
  function UnitsRestocked(es: seq<LogEntry>, id: SweetId): int
  {
    if |es| == 0 then 0
    else (if es[0].sweet == id && es[0].action == RestockAction then es[0].change else 0)
         + UnitsRestocked(es[1..], id)
  }

  lemma {:induction false} UnitsRestockedAppend(a: seq<LogEntry>, b: seq<LogEntry>, id: SweetId)
    ensures UnitsRestocked(a + b, id) == UnitsRestocked(a, id) + UnitsRestocked(b, id)
  {
    if |a| == 0 {
      assert a + b == b;
    } else {
      assert (a + b)[1..] == a[1..] + b;
      UnitsRestockedAppend(a[1..], b, id);
    }
  }
}

=== FILE: wrappers.dfy ===
/** Failure-carrying wrappers shared by every module of the model. */
module Wrappers {

  /** A value that may be absent, as an optional field of a JSON request body. */
  datatype Option<+T> = None | Some(value: T)
  {
    function GetOr(default: T): T
    {
      match this
      case Some(v) => v
      case None => default
    }
  }

  /** The outcome of a route handler: its success payload or the error it reports. */
  datatype Result<+T, +E> = Ok(value: T) | Err(error: E)

  function Min(a: int, b: int): int
  {
    if a <= b then a else b
  }
}
